=== FILE: README.md ===
# Replay backtest: a Dafny model of `env/replay.py`

This project models the replay engine of a limit-order-book backtester.
`Episode` loads one recorded data file per source identifier
(`<market_id>.BOOK` or `<market_id>.TRADES`). It restricts each file to the
episode window and aligns all sources on one global timeline. It then marks,
for every timestamp, which sources have a record there. Iterating an episode
yields one step per timestamp. A step carries the timestamp, the next
timestamp, the buffering flag and the updated sources' rows.

`Backtest.run` builds an episode and creates one market per market id. It
replays the episode: each tick updates and matches every touched market.
After buffering ends, each tick also notifies the agent. The registries are
cleared at the end. `Backtest.run_generator` filters a grid of episode
starts to business days and trading hours. It runs episodes from the grid
until enough have completed.

The model is pure and functional. A run is described by the sequence of
calls it makes:
- calls into the market engine (`CreateMarket`, `UpdateMarket`, `MatchOrders`);
- calls into the agent (`OnQuote`, `OnTrade`, `OnTime`);
- the three registry resets;
- an optional failure.

Timestamps are integers in nanoseconds since the epoch. A missing cell
(`NaN`) is `None`.

Modules, in dependency order:
- `Wrappers`: `Option` and `Result`.
- `Seqs`: first-occurrence deduplication, i.e. the key order of a dict.
- `Messages`: `str.format` with keyword arguments, for the progress messages.
- `Text`: substring search, ASCII lower-casing, splitting and decimal digits.
- `Clock`: day number, time of day and weekday of a timestamp; the civil
  date and its `YYYYMMDD` string.
- `Timeline`: increasing sequences, merge and union.
- `Frames`: rows with a timestamp and cells, and the inclusive window filter.
- `Align`: the column-level alignment (prefix, outer join, select, rename)
  and the change monitor.
- `Sources`: path resolution and data loading.
- `Episodes`: episode construction, the tolerance check and iteration.
- `Backtest`: one tick and one run.
- `Schedule`: the grid filter and the episode loop of `run_generator`.

Behaviour a reader may not expect, modelled as the code has it:
- Alignment does not forward-fill (env/replay.py:291-299). A source with no
  record at a timestamp contributes an all-missing row there. Its monitor
  entry is false.
- A source file with no rows at all is an error (env/replay.py:250). The
  check happens before the window filter. A file whose rows all fall outside
  the window is not an error by itself; only an empty global timeline is.
- A file need not be sorted. When the windows' indexes differ, the outer
  `concat` aligns them and orders the union index (env/replay.py:291-293).
  It reindexes each window whose index differs from that union, and it
  cannot reindex a window that repeats a timestamp, so such a repeat
  raises. The model reports every in-window repeat as an error
  (`RepeatedTimestamp`), including those pandas leaves alone; when there
  is nothing to align, the index is kept as it is, and the model sorts in
  that case too (see Left out).
- `on_time` is called after every dispatched source, not once per tick
  (env/replay.py:527-531).
- The length check is absolute: last timestamp minus first timestamp must be
  strictly below 300 seconds (env/replay.py:131-137). The comment at line
  132 speaks of a deviation from the episode length, but the code compares
  the span itself.
- The registries are reset only when the replay does not raise
  (env/replay.py:617-623). A failing episode leaves them un-reset: they
  still hold that run's markets, orders and trades.

## Model

| member | source | states |
|---|---|---|
| Messages.Format | env/replay.py:103-107 | `str.format` with keywords renders iff every placeholder has a keyword; otherwise it raises with the name of a placeholder that has none |
| Seqs.Distinct | env/replay.py:240-262 | the keys of a dict filled from a list: exactly the list's elements, each once, in first-occurrence order |
| Text.SplitPair | env/replay.py:189 | `split(".")` unpacks into two parts exactly when the separator occurs once; the parts reassemble the identifier and contain no separator |
| Text.SecondFieldOfPrefixed | env/replay.py:302-304 | removing the `id__` prefix with `split("__")[1]` gives back the original column name when neither part contains `__` |
| Text.PaddedRoundTrip | env/replay.py:178 | a zero-padded decimal field has the requested width and reads back as the number |
| Clock.TimeOfDayMicros | env/replay.py:687 | `.time()` is the offset after the timestamp's midnight, to the microsecond, and lies within one day |
| Clock.Weekday | env/replay.py:686 | `.weekday()` is in 0..6 |
| Clock.WeekdayCycle | env/replay.py:686 | 1970-01-05 has weekday 0 (Monday), and each next day has the next weekday, wrapping after Sunday |
| Clock.DateStringRoundTrip | env/replay.py:177-178 | the `YYYYMMDD` string of a timestamp has eight characters and parses back to a valid calendar date whose day number is the timestamp's date |
| Clock.DateStringInjective | env/replay.py:177-178 | two timestamps with the same date string lie on the same date |
| Timeline.Merge | env/replay.py:291-293 | the outer join of two timelines is increasing and holds exactly the timestamps of either |
| Timeline.UnionAll | env/replay.py:291-293 | the outer join of all timelines is increasing and holds exactly the timestamps of any of them |
| Frames.Between | env/replay.py:257 | `between(start, end)` keeps exactly the rows with start ≤ time ≤ end, both ends included |
| Frames.BetweenChronological | env/replay.py:257 | filtering keeps the rows in chronological order |
| Frames.Sort | env/replay.py:291-293 | rows with pairwise different timestamps come out in increasing timestamp order, with the same rows and count |
| Frames.Window | env/replay.py:257 | the filtered frame keeps its columns and exactly the in-window rows, in timestamp order as a reindexing `concat` orders them |
| Align.GlobalTimeline | env/replay.py:291-293 | the merged index is increasing and is the union of every source's timestamps |
| Align.Merged | env/replay.py:285-293 | every column of the joined frame carries the `__` prefix separator and one value per global timestamp |
| Align.SelectMembers | env/replay.py:298 | the column filter keeps a joined column iff its name contains the identifier |
| Align.TimestampColumnNeverSelected | env/replay.py:297-298 | the timestamp column is never picked up by the identifier filter, so it appears only once |
| Align.SelectJoined | env/replay.py:285-298 | for a separable source, the filter takes every column of its own prefixed block and no column of any other source's block |
| Align.SelectBlock | env/replay.py:296-299 | when the filter takes one source's whole block and nothing from the others, it returns from the joined frame exactly that block |
| Align.AlignOneOfJoined | env/replay.py:296-305 | splitting the prefix off a source's own block gives back its column names, and its cells at each step are its reindexed row |
| Align.AlignStore | env/replay.py:282-308 | one aligned table per source, in source order and under the same identifier, each indexed by the global timeline |
| Align.AlignedTableOfSource | env/replay.py:285-305 | a source's aligned table has its original columns, and its row at each global timestamp is the source's record there, or all missing |
| Align.RestoreRowsInverse | env/replay.py:291-305 | reading the records back off the global timeline returns the source's rows exactly |
| Align.AlignRoundTrip | env/replay.py:282-308 | alignment loses nothing: dropping the all-missing rows of an aligned table gives back the source's rows |
| Align.BuildMonitor | env/replay.py:328-336 | the monitor has the first table's index and one flag per source per timestamp; a flag is set iff some non-timestamp column of that source holds a value at that step |
| Align.MonitorMarksRecords | env/replay.py:333 | a source is marked changed at a timestamp iff it has a record there with a value |
| Sources.Candidates | env/replay.py:192-201 | a path passes the filters iff it contains the market id and the event id case-insensitively and the date string as written |
| Sources.ResolveCases | env/replay.py:188-214 | an identifier resolves iff it has exactly one `.` and exactly one file passes the filters; otherwise the error names it, as a bad identifier when it does not split |
| Sources.ResolvedIsUniqueCandidate | env/replay.py:204-211 | a resolved identifier's file is the only file passing the filters, and it is one of the files found |
| Sources.ResolveAll | env/replay.py:186-214 | the path store succeeds iff every identifier resolves; its keys are the identifiers, and each maps to its resolved file |
| Sources.BuildPathStore | env/replay.py:175-214 | start and end on different dates is an error; otherwise the path store succeeds iff every identifier resolves on that date |
| Sources.FirstEmpty | env/replay.py:240-254 | finds the first identifier whose file has no row at all, or reports that every file has one |
| Sources.FirstRepeated | env/replay.py:291-293 | finds the first identifier whose in-window rows repeat a timestamp, or reports that none does |
| Sources.LoadAll | env/replay.py:240-293 | loading succeeds iff every file has a row and no window repeats a timestamp (stricter than pandas, which accepts a repeating window equal to the union index; see Left out); an empty file is reported first, then a repeat, each naming its identifier; each source's frame is its file windowed to the episode and sorted (pandas keeps file order when nothing needs aligning; see Left out), so every record lies in the window |
| Sources.BuildDataStore | env/replay.py:240-262 | the data store over the distinct identifiers, in first-occurrence order, with the same success condition and errors |
| Episodes.Prepare | env/replay.py:115-119 | a date mismatch fails; on success there is one windowed source per distinct identifier, in order, with at least one source; an empty identifier list is the only cause of `NoSources`; an empty file, a repeated timestamp or an unresolved identifier is reported with an identifier from the list |
| Episodes.Gather | env/replay.py:115-117 | the data store over resolved paths: on success one windowed source per distinct identifier, in order, at least one; `NoSources` only for an empty identifier list; any other error names an identifier from the list |
| Episodes.Setup | env/replay.py:110-146 | construction fails exactly when preparation fails, the timeline is empty, or the span reaches 300 s; on success the episode is valid, available and built from the prepared sources |
| Episodes.PreparingMessageRaises | env/replay.py:103-107 | the preparing message as written raises `KeyError('timestamp_start')` whatever the timestamps |
| Episodes.PreparingMessageRenders | env/replay.py:103-107 | with keywords named after its placeholders the preparing message renders |
| Episodes.StepMessageRaises | env/replay.py:390-394 | the step message as written raises `KeyError('timestamp')` |
| Episodes.StepMessageRenders | env/replay.py:390-394 | passing the step's timestamp as well renders the step message |
| Episodes.NextIndex | env/replay.py:379-381 | the next-timestamp index stays inside the timeline: it is one past the step, except at the last step, where it is the step itself |
| Episodes.NextIndexAsWrittenOverruns | env/replay.py:379-381 | the clamp as written agrees with the corrected one except at the last step, where it yields the timeline's length, one past the end |
| Episodes.Iterate | env/replay.py:357-426 | an unavailable episode yields nothing; an available one yields one step per global timestamp |
| Episodes.TimelineIsWindowedUnion | env/replay.py:257-299 | the episode's timeline is increasing, is the union of the sources' in-window timestamps, and lies within the window; every aligned table uses it |
| Episodes.UnavailableYieldsNothing | env/replay.py:357-359 | iterating an episode that was not set up yields no step |
| Episodes.BufferingMonotone | env/replay.py:399-400 | step timestamps strictly increase; a step is buffering iff its timestamp is before the episode start; once buffering ends it never resumes |
| Episodes.NextTimestamp | env/replay.py:376-381 | each step's next timestamp is the following step's timestamp, or its own at the last step |
| Episodes.UpdateIsMarkedRows | env/replay.py:409-423 | a step's update holds exactly the (identifier, aligned row) pairs of the sources marked changed at that timestamp |
| Episodes.UpdateCarriesRecords | env/replay.py:409-423 | a step's update pairs a source with a row iff that row is the source's own record at the step's timestamp and it has a value |
| Episodes.RecordIsReindexed | env/replay.py:291-293 | a source's record is found at its own timestamp and re-indexes to its own cells |
| Backtest.Markets | env/replay.py:573-575 | the markets created are exactly the market ids of the identifiers, each once |
| Backtest.BookOf | env/replay.py:596 | a market's book argument is present iff the update holds its `.BOOK` identifier, and it is that row |
| Backtest.TradesOf | env/replay.py:597 | a market's trades argument is the empty placeholder iff the update holds no `.TRADES` identifier for it; otherwise it is that row |
| Backtest.MarketCalls | env/replay.py:594-598 | for each touched market, in order, one update with its book and trades rows, then one match |
| Backtest.MarketCallsTouch | env/replay.py:486-493 | every market-engine call of a tick addresses a touched market |
| Backtest.UpdatedMarkets | env/replay.py:589 | the touched markets are exactly the market ids of the updated identifiers, each once |
| Backtest.FirstUnknown | env/replay.py:511-525 | finds the first updated identifier that ends in neither `BOOK` nor `TRADES`, or reports that none does |
| Backtest.Notifications | env/replay.py:605-610 | for each updated source, in order, its quote or trade notification followed by `on_time(timestamp, next)` |
| Backtest.NotificationsAreAgentCalls | env/replay.py:605-610 | the agent loop makes only agent calls, and every `on_time` carries the step's two timestamps |
| Backtest.AgentCalls | env/replay.py:605-610 | the agent loop fails iff some updated identifier is unknown; otherwise it makes exactly the notifications |
| Backtest.DispatchOne | env/replay.py:511-531 | a `BOOK` source gives `on_quote` then `on_time`; otherwise a `TRADES` source gives `on_trade` then `on_time`; any other source raises before any call |
| Backtest.Tick | env/replay.py:589-610 | a buffering step makes no agent call and never fails; a trading step fails exactly when the agent loop does |
| Backtest.TickOrder | env/replay.py:592-610 | within a tick, all market updates and matches come first, then only agent calls |
| Backtest.AgentLoopCall | env/replay.py:605-610 | whether or not it raises, the agent loop makes only agent calls, and each `on_time` carries the step's two timestamps |
| Backtest.TickCall | env/replay.py:589-610 | a tick never creates or resets; its market calls address touched markets; its `on_time` carries the step's timestamps and happens only outside buffering |
| Backtest.TicksFromSteps | env/replay.py:583-610 | every call of a replay belongs to one of its ticks |
| Backtest.TicksSucceed | env/replay.py:583-610 | a replay completes iff every tick completes |
| Backtest.TicksKeepSteps | env/replay.py:583-610 | in a completed replay, every call of every tick is made |
| Backtest.ReplayMakesNoSetupCall | env/replay.py:583-610 | the replay loop neither creates a market nor clears a registry |
| Backtest.CreateAndReplay | env/replay.py:573-623 | the creations come first; the run fails iff the replay does; a completed run makes every replay call and ends with the three resets; a failed one makes no reset; every other call is a replay call |
| Backtest.SetupIsBuilt | env/replay.py:110-146 | a constructed episode is valid, available, keeps its records inside its window, and has only requested identifiers as sources |
| Backtest.Execute | env/replay.py:559-623 | a failed construction makes no call and reports the failure; otherwise the run opens with the market creations; a completed run ends with the three resets; a failed replay makes no reset |
| Backtest.Run | env/replay.py:559-623 | a failed setup makes no call and reports the failure; otherwise the run opens with the market creations; a completed run ends with the three resets; a failed replay makes no reset |
| Backtest.RunCallFromReplay | env/replay.py:583-614 | every call of a run other than creations and resets comes from replaying its episode, which was therefore built |
| Backtest.UpdateIdsAreSources | env/replay.py:409-418 | every identifier in an update is one of the episode's sources |
| Backtest.ReplayMarketCall | env/replay.py:589-598 | every market-engine call of a replay addresses the market of one of the episode's sources |
| Backtest.MarketsCreatedBeforeUse | env/replay.py:573-598 | every market touched during a run was created among the run's opening calls |
| Backtest.ReplayCreatesMarket | env/replay.py:573-598 | every market the replay of an episode built from the identifiers calls is among their creations |
| Backtest.MarketCreated | env/replay.py:573-578 | every identifier's market is among the creations |
| Backtest.ReplayOnTime | env/replay.py:600-610 | every `on_time` of a replay lies within the trading window: start ≤ timestamp ≤ next ≤ end |
| Backtest.OnTimeWithinEpisode | env/replay.py:600-610 | the agent is never told a time before the episode start or after its end |
| Backtest.ReplayTellsRecord | env/replay.py:583-610 | in a replay that runs to the end, every record with a value of a separable source at a trading step is notified to the agent |
| Backtest.AgentToldEveryRecord | env/replay.py:583-610 | in a completed run, every in-window record with a value at a trading timestamp reaches the agent as its source's notification |
| Schedule.AsWrittenKeepsMidnightEpisode | env/replay.py:685-688 | the end test as written keeps a 30-minute episode starting Monday 23:50, which ends the next day |
| Schedule.KeptEpisodeFitsTradingDay | env/replay.py:685-688 | an intraday start is kept iff it is a business day and the whole episode lies between 08:00 and 16:30 of that day |
| Schedule.MidnightGridKeepsNothing | env/replay.py:680-688 | on a grid of midnights the intraday filter keeps no point |
| Schedule.FilterGrid | env/replay.py:705-708 | the filtered grid holds exactly the grid points that pass every test |
| Schedule.FilterGridIncreasing | env/replay.py:705-708 | filtering keeps the grid's order |
| Schedule.EpisodeWindow | env/replay.py:726-728 | the episode starts `buffer` minutes and ends `length` minutes after the grid point; the length includes the buffer |
| Schedule.KeptWindowOnOneDate | env/replay.py:175-176 | a kept intraday start gives a window whose buffer start and end share a date, so the date check passes |
| Schedule.PickedMembers | env/replay.py:737-743 | a start is counted iff some position holding it has a completed run |
| Schedule.PickedConcat | env/replay.py:725-743 | counting over two stretches of the grid is counting over each in turn |
| Schedule.CompletedMember | env/replay.py:725-743 | every start counted as completed is a filtered grid point whose run completes |
| Schedule.AttemptNext | env/replay.py:725-743 | one pass runs the episode at the current index and counts its start iff the run completes |
| Schedule.CollectCompleted | env/replay.py:722-747 | trying the starts in order until the target is met returns the first completed starts, as many as the target or as complete, whichever is fewer |
| Schedule.RunGenerator | env/replay.py:718-747 | the loop returns the first completed grid points, as many as `min(len(grid), num_episodes)` or as many as complete, whichever is fewer; each is a kept grid point whose episode completes |
| Schedule.AsWrittenPass | env/replay.py:725-747 | one pass of the loop as written always advances the grid index |
| Schedule.AsWrittenLoop | env/replay.py:722-747 | the loop as written stops only with at least the target count of completed episodes |
| Schedule.AsWrittenSpinsPastGrid | env/replay.py:722-747 | once the grid index is past the end and the count is short, the loop as written never stops |
| Schedule.AsWrittenNeverStopsAfterSkip | env/replay.py:737-747 | with two completing points and two episodes asked, a success advances the index by two, so the loop as written never stops |
| Schedule.AsWrittenNeverStopsOnFailure | env/replay.py:722-747 | with one failing point and one episode asked, the loop as written never stops |

## Left out

- Directory walk and file parsing: `os.walk`, `read_csv` and `read_json` are
  not modelled. The files found are an input, each given with the frame it
  loads to. Files whose names start with `.` or `_` are assumed already
  excluded (line 182).
- Frame cells are abstract integers or missing values. Columns and dtypes
  beyond the timestamp are not interpreted.
- `tz_localize(None)` is left out. Timestamps are taken as timezone-free.
- The matching engine (`MarketState`, `Order`, `Trade`) and the agent are
  not modelled. Their methods appear only as recorded calls with their
  arguments.
- `Backtest.Tick`: engine calls (`update`, `match`, lines 487-493) and agent
  calls (`on_quote`, `on_trade`, `on_time`, lines 515-531) are taken never
  to raise. In the source any of them raising aborts `run` before the resets
  (617-623), and `run_generator` swallows the exception (739-745). So "a
  buffering step never fails" (`Backtest.Tick`), "the agent loop fails iff
  some identifier is unknown" (`Backtest.AgentCalls`), "the run fails iff
  the replay does" (`Backtest.CreateAndReplay`) and `Schedule.Completes`
  cover only the raises of the replay itself.
- `Schedule.Completes`: runs are taken to be independent. Each grid point's
  outcome is computed from fresh registries; in the source a failed run
  leaves the registries un-reset for the next one.
- `Align.AlignStore`: the timestamp is taken to be the first column of every
  loaded frame, since the renaming skips `df.columns[0]` (lines 285-287 and
  302-304). As written, a file with the timestamp in any other position gets
  it prefixed, and `set_index(DATETIME)` at line 292 raises `KeyError`.
- Logging, wall-clock timing and the `display_interval` printing are left
  out. Two log messages raise as written; they are listed under Findings
  with their own members.
- `Episodes.Setup`: the preparing message (lines 103-107) raises `KeyError`
  on every construction, and `run` turns that into its own exception, so as
  written no episode is ever built. `Setup` models the construction the
  code evidently intends, past a message that renders.
- `Episodes.Iterate`: the progress figure (line 386) divides by
  `end - bufferStart`, which raises `ZeroDivisionError` when the two are
  equal, and setup accepts such a window. The ETA divides by that figure in
  turn. The step message (line 390) raises `KeyError` at every step. The
  model yields the steps these lines were meant to report on.
- `Episodes.Setup`: a file with unsorted rows is accepted and its window
  sorted. The outer `concat` sorts only when it has to align differing
  indexes. With a single source, or with all windows sharing one identical
  index, it keeps the file order, so there the source's steps follow the
  file and the next timestamp can go backwards, while the model's steps
  still increase. In those same cases a window that repeats a timestamp is
  reported as `RepeatedTimestamp`, although pandas would not reindex and
  would not raise. The same holds whenever the repeating window is sorted
  and already equals the union index, so that only the other windows are
  reindexed: for example windows at [1, 1, 2] and [1, 2], or a repeating
  window beside empty ones. There pandas builds a timeline that repeats a
  timestamp, and the model rejects the episode instead. The model takes
  every source to be sorted and free of repeats, as the market-data files
  it reads are meant to be.
- `result_list.append(None)` is left out. It records no information.
- Multi-threading is left out. The source imports `concurrent.futures` but never uses it; episodes run one after another.
- The grid itself (`pd.date_range`) is an input to `Schedule.RunGenerator`.
- `Schedule.RunGenerator`: as written, the intraday grid uses
  `freq=f"{episode_interval}m"`, which pandas reads as month end, not
  minutes, and `normalize=True` puts every point at midnight. No midnight
  passes the 08:00 test (`Schedule.MidnightGridKeepsNothing`), so as
  written an intraday `run_generator` runs nothing. The model takes any
  grid, including the minute grid evidently intended.
- `Schedule.RunGenerator`: shuffling the grid is not modelled. The grid is
  taken in the order given, and any order can be passed in.
- The iteration over the set of markets is modelled in first-occurrence
  order. Python's set order is unspecified.
- `Text.Lower` lower-cases ASCII letters only. Python's `str.lower` also
  folds other scripts.
- `Backtest.Run`: `episode.timestamp_this` (line 586) names no attribute of
  `Episode`, so as written every run raises `AttributeError` at its first
  step. The model leaves out the assignment it was meant to make, to a
  global that nothing in the core reads.
- `Backtest.Run`: `self.episode.episode_buffering` (line 601) reads an
  attribute that stays `None` (line 461), so as written it raises
  `AttributeError` too. The model reads it as the episode's buffering flag
  for the current step.
- `Backtest.Run`: the update is a one-shot `zip`. The source consumes it
  twice and calls `.get` on it, which a `zip` does not have. The model reads
  it as the dict it was evidently meant to be.
- `Schedule.RunGenerator`: the daily-grid branch (line 695) contains
  `date_end + ,`, a syntax error, so as written env/replay.py cannot be
  imported at all and `Episode` and `Backtest` are unusable as well. The
  model takes it as the daily grid, filtered to business days, and models
  every class as if the module loaded.
- `Schedule.RunGenerator`: `random.seed(seed)` uses an undefined name, and
  `random.shuffle` returns `None`. Both are part of shuffling, which is left
  out.
- `Schedule.RunGenerator`: `num_episodes=None` makes `min` raise. The model
  takes `num_episodes` as a natural number.
- `Schedule.EpisodeWindow`: `pd.Timedelta(episode_buffer, "min")` is applied
  to a value that is already a `Timedelta`. The model reads both window
  offsets as minutes.
- `Sources.BuildPathStore`: `self.directory` is never set (line 181). The
  files are passed in instead.
- `Sources.LoadAll`: an identifier containing neither `BOOK` nor `TRADES`
  reuses the previous file's frame, or raises for the first identifier. The
  model loads the identifier's own file.
- `Episodes.Setup`: the source raises on an empty identifier list and on an
  empty monitor. The model reports these as `NoSources` and
  `EmptyTimeline`.
- `Episodes.Iterate`: the timing report after the iteration loop (lines
  429-440) is left out. It divides by the last step index, which is 0 for a
  one-step episode. There, as written, `ZeroDivisionError` is raised when
  the generator finishes, so `run` raises before the resets (617-623) and
  `run_generator` counts that point as failed. The model completes such a
  run.

## Findings

| source | as written | input that shows it | evidently intended | confidence | as-written member | corrected member |
|---|---|---|---|---|---|---|
| env/replay.py:379-381 | `iloc[min(step + 1, len(index)), 0]` clamps the next index to the length | the last step of any episode, where `step + 1 == len(index)`: the index is one past the end, so `iloc` raises and no run completes | clamp to `len(index) - 1`, giving the step's own timestamp as next | high; not executed | Episodes.NextIndexAsWrittenOverruns | Episodes.NextIndex |
| env/replay.py:739 | a completed episode increments `episode_index` in the `try` and again in `finally` | two grid points that both complete, two episodes asked: the second point is skipped, the index passes the grid with one episode counted, and the loop never stops | one index step per attempt | high; not executed | Schedule.AsWrittenNeverStopsAfterSkip | Schedule.CollectCompleted |
| env/replay.py:722 | the loop condition looks only at the count of completed episodes | one grid point that fails, one episode asked: the count stays 0 and the loop spins on indices past the grid | stop when the grid is used up | high; not executed | Schedule.AsWrittenNeverStopsOnFailure | Schedule.CollectCompleted |
| env/replay.py:688 | the end test compares only the time of day of `start + length` | a Monday 23:50 grid point with a 30-minute length: the end, 00:20, passes the `<= 16:30` test; the run then fails the same-date check, so the point costs one attempt (a month-end grid never holds such a point) | the episode ends on the start's own day by 16:30 | medium; not executed | Schedule.AsWrittenKeepsMidnightEpisode | Schedule.KeptEpisodeFitsTradingDay |
| env/replay.py:103-107 | the preparing message has placeholders `timestamp_start`, `timestamp_buffer`, `timestamp_end` but is given keywords `episode_start`, `episode_start_buffer`, `episode_end` | any `Episode(...)`: `.format` raises `KeyError('timestamp_start')` before any data is loaded, so `run` always raises | keywords named after the placeholders | high; not executed | Episodes.PreparingMessageRaises | Episodes.PreparingMessageRenders |
| env/replay.py:390-394 | the step message has a `timestamp` placeholder, but only `step`, `progress` and `eta` are passed | the first step of any episode: `.format` raises `KeyError('timestamp')` | pass the step's timestamp too | high; not executed | Episodes.StepMessageRaises | Episodes.StepMessageRenders |

=== FILE: align.dfy ===
/** `Episode._align_data_store` and `Episode._build_data_monitor`: the N
    windowed sources are joined side by side on the union of their
    timestamps (pandas' outer `concat` on axis 1), then split apart again so
    that every source has one row per global timestamp; a monitor records,
    per timestamp and source, whether that row carries any value.

    The join works on column NAMES: each column is renamed `<id>__<name>`,
    the merged frame is split by keeping, for each identifier, every column
    whose name CONTAINS the identifier, and the prefix is removed again with
    `name.split("__")[1]`. The model keeps exactly that, so the round trip
    below holds only under the conditions `Separable` spells out. The
    timestamp column itself is never picked up by the split
    (`TimestampColumnNeverSelected`). */
module Align {
  import opened Wrappers
  import opened Text
  import opened Timeline
  import opened Frames

  /** The name of the timestamp column (`DATETIME`). */
  const DatetimeColumn: string := "TIMESTAMP_UTC"

  /** One entry of the data store: an identifier and its windowed frame. */
  datatype Source = Source(id: string, frame: Frame)

  /** One column of the merged frame. */
  datatype Column = Column(name: string, values: seq<Cell>)

  /** An aligned frame: column names, the global timeline as index, and the
      cells column by column (`data[c][i]` is column `c` at step `i`). */
  datatype Table = Table(columns: seq<string>, index: seq<int>, data: seq<seq<Cell>>)

  datatype Aligned = Aligned(id: string, table: Table)

  predicate StoreWellFormed(store: seq<Source>)
  {
    forall k :: 0 <= k < |store| ==> WellFormed(store[k].frame)
  }

  /** Every column has one cell per index entry. */
  predicate Shaped(t: Table)
  {
    |t.data| == |t.columns| && forall c :: 0 <= c < |t.data| ==> |t.data[c]| == |t.index|
  }

  /** The cells of a table at step `i` (`df.iloc[i, 1:]`). */
  function RowCells(t: Table, i: int): seq<Cell>
    requires Shaped(t) && 0 <= i < |t.index|
  {
    seq(|t.data|, c requires 0 <= c < |t.data| => t.data[c][i])
  }

  // ---- the join ----

  /** The union of all sources' timestamps: the index of `df_merged`. */
  function GlobalTimeline(store: seq<Source>): (r: seq<int>)
    requires StoreWellFormed(store)
    ensures Increasing(r)
    ensures forall t :: t in r <==> exists k :: 0 <= k < |store| && t in Times(store[k].frame.rows)
  {
    var ts := seq(|store|, k requires 0 <= k < |store| => Times(store[k].frame.rows));
    assert forall k :: 0 <= k < |store| ==> ts[k] == Times(store[k].frame.rows);
    UnionAll(ts)
  }

  /** A source's cells at global timestamp `t`: its own row there, or all
      NaN where the outer join had nothing from it. */
  function Reindexed(f: Frame, t: int): (r: seq<Cell>)
    requires Rectangular(f)
    ensures |r| == |f.columns|
  {
    match RowAt(f.rows, t)
    case Some(x) => x.cells
    case None => seq(|f.columns|, _ => None)
  }

  /** A source's share of `df_merged`: its columns renamed `<id>__<name>`
      and reindexed on the global timeline. */
  function Joined(s: Source, timeline: seq<int>): (r: seq<Column>)
    requires Rectangular(s.frame)
    ensures |r| == |s.frame.columns|
  {
    seq(|s.frame.columns|, c requires 0 <= c < |s.frame.columns| =>
      Column(s.id + Sep + s.frame.columns[c],
        seq(|timeline|, i requires 0 <= i < |timeline| => Reindexed(s.frame, timeline[i])[c])))
  }

  /** Every joined column carries the `__` separator and one cell per step. */
  lemma JoinedNames(s: Source, timeline: seq<int>)
    requires Rectangular(s.frame)
    ensures forall x :: x in Joined(s, timeline) ==> Contains(x.name, Sep) && |x.values| == |timeline|
  {
    var head := Joined(s, timeline);
    forall x | x in head ensures Contains(x.name, Sep) && |x.values| == |timeline| {
      var c :| 0 <= c < |head| && head[c] == x;
      ContainsWitness(x.name, Sep, |s.id|);
    }
  }

  /** `df_merged` without its timestamp column: all sources' columns side by
      side, in data-store order. */
  function Merged(store: seq<Source>, timeline: seq<int>): (r: seq<Column>)
    requires StoreWellFormed(store)
    ensures forall x :: x in r ==> Contains(x.name, Sep) && |x.values| == |timeline|
  {
    if |store| == 0 then []
    else
      JoinedNames(store[0], timeline);
      Joined(store[0], timeline) + Merged(store[1..], timeline)
  }

  /** `[x for x in df_merged.columns if id in x]`. */
  function Select(cols: seq<Column>, id: string): seq<Column>
  {
    if |cols| == 0 then []
    else (if Contains(cols[0].name, id) then [cols[0]] else []) + Select(cols[1..], id)
  }

  /** The split keeps exactly the columns whose name contains the identifier. */
  lemma {:induction false} SelectMembers(cols: seq<Column>, id: string)
    ensures forall x :: x in Select(cols, id) <==> x in cols && Contains(x.name, id)
  {
    if |cols| > 0 {
      SelectMembers(cols[1..], id);
      assert cols == [cols[0]] + cols[1..];
    }
  }

  /** `_align_data_store` for one identifier: its selected columns with the
      prefix split off again, on the global timeline. */
  function AlignOne(store: seq<Source>, timeline: seq<int>, id: string): (r: Table)
    requires StoreWellFormed(store)
    ensures Shaped(r) && r.index == timeline
  {
    SelectMembers(Merged(store, timeline), id);
    var cols := Select(Merged(store, timeline), id);
    Table(
      seq(|cols|, c requires 0 <= c < |cols| => assert cols[c] in cols; SecondField(cols[c].name)),
      timeline,
      seq(|cols|, c requires 0 <= c < |cols| => cols[c].values))
  }

  /** `_align_data_store`: every source gets a table indexed by the same
      global timeline, so all tables have equal length. */
  function AlignStore(store: seq<Source>): (r: seq<Aligned>)
    requires StoreWellFormed(store)
    ensures |r| == |store|
    ensures forall k :: 0 <= k < |r| ==>
      r[k].id == store[k].id && Shaped(r[k].table) && r[k].table.index == GlobalTimeline(store)
  {
    var timeline := GlobalTimeline(store);
    seq(|store|, k requires 0 <= k < |store| => Aligned(store[k].id, AlignOne(store, timeline, store[k].id)))
  }

  // ---- the monitor ----

  /** `_build_data_monitor`: the first table's index, and per step and
      source whether any non-timestamp cell is present
      (`~df.iloc[:, 1:].isna().all(axis=1)`). */
  datatype Monitor = Monitor(index: seq<int>, changed: seq<seq<bool>>)

  predicate SameIndex(aligned: seq<Aligned>)
  {
    && |aligned| > 0
    && (forall k :: 0 <= k < |aligned| ==> Shaped(aligned[k].table))
    && (forall k :: 0 <= k < |aligned| ==> aligned[k].table.index == aligned[0].table.index)
  }

  /** A step of a table has a value iff some column holds a cell there. */
  lemma PresentCell(t: Table, i: int)
    requires Shaped(t) && 0 <= i < |t.index|
    ensures HasValue(RowCells(t, i)) <==> exists c :: 0 <= c < |t.data| && t.data[c][i].Some?
  {
    if exists c :: 0 <= c < |t.data| && t.data[c][i].Some? {
      var c :| 0 <= c < |t.data| && t.data[c][i].Some?;
      assert RowCells(t, i)[c].Some?;
    }
  }

  function BuildMonitor(aligned: seq<Aligned>): (m: Monitor)
    requires SameIndex(aligned)
    ensures m.index == aligned[0].table.index && |m.changed| == |m.index|
    ensures forall i :: 0 <= i < |m.changed| ==> |m.changed[i]| == |aligned|
    ensures forall i, k :: 0 <= i < |m.changed| && 0 <= k < |aligned| ==>
      (m.changed[i][k] <==> exists c :: 0 <= c < |aligned[k].table.data| && aligned[k].table.data[c][i].Some?)
  {
    var index := aligned[0].table.index;
    forall i, k | 0 <= i < |index| && 0 <= k < |aligned|
      ensures HasValue(RowCells(aligned[k].table, i)) <==>
        exists c :: 0 <= c < |aligned[k].table.data| && aligned[k].table.data[c][i].Some?
    {
      PresentCell(aligned[k].table, i);
    }
    Monitor(index,
      seq(|index|, i requires 0 <= i < |index| =>
        seq(|aligned|, k requires 0 <= k < |aligned| => HasValue(RowCells(aligned[k].table, i)))))
  }

  // ---- what the split gives back ----

  /** When source `k` comes back intact: its identifier and column names
      carry no stray `__`, and no other source's prefixed column name
      contains its identifier. */
  predicate Separable(store: seq<Source>, k: int)
  {
    && 0 <= k < |store|
    && !Contains(store[k].id + "_", Sep)
    && (forall c :: 0 <= c < |store[k].frame.columns| ==> !Contains(store[k].frame.columns[c], Sep))
    && (forall j, c :: 0 <= j < |store| && j != k && 0 <= c < |store[j].frame.columns| ==>
          !Contains(store[j].id + Sep + store[j].frame.columns[c], store[k].id))
  }

  /** Identifiers have the form `<market>.<event>`; the timestamp column has
      no `.`, so no identifier selects it. */
  lemma TimestampColumnNeverSelected(id: string)
    requires '.' in id
    ensures !Contains(DatetimeColumn, id)
  {
    NoCharNoContains(DatetimeColumn, id, '.');
  }

  lemma {:induction false} SelectConcat(a: seq<Column>, b: seq<Column>, id: string)
    ensures Select(a + b, id) == Select(a, id) + Select(b, id)
  {
    if |a| > 0 {
      assert (a + b)[1..] == a[1..] + b;
      SelectConcat(a[1..], b, id);
    } else {
      assert a + b == b;
    }
  }

  lemma {:induction false} SelectNone(cols: seq<Column>, id: string)
    requires forall c :: 0 <= c < |cols| ==> !Contains(cols[c].name, id)
    ensures Select(cols, id) == []
  {
    if |cols| > 0 { SelectNone(cols[1..], id); }
  }

  lemma {:induction false} SelectAll(cols: seq<Column>, id: string)
    requires forall c :: 0 <= c < |cols| ==> Contains(cols[c].name, id)
    ensures Select(cols, id) == cols
  {
    if |cols| > 0 {
      SelectAll(cols[1..], id);
      assert cols == [cols[0]] + cols[1..];
    }
  }

  /** From one source's joined columns the split for source `k` picks all
      of them when it is source `k` itself, and none otherwise. */
  lemma SelectJoined(store: seq<Source>, timeline: seq<int>, k: int, j: int)
    requires StoreWellFormed(store) && Separable(store, k) && 0 <= j < |store|
    ensures Select(Joined(store[j], timeline), store[k].id) == if j == k then Joined(store[k], timeline) else []
  {
    var id := store[k].id;
    var head := Joined(store[j], timeline);
    if j == k {
      forall c | 0 <= c < |head| ensures Contains(head[c].name, id) {
        assert OccursAt(head[c].name, id, 0);
      }
      SelectAll(head, id);
    } else {
      SelectNone(head, id);
    }
  }

  /** When the split for `id` picks the whole block of the source at
      position `k` of `rest` and nothing from any other source, it picks
      from `rest` exactly those columns (or none when `k` lies before
      `rest`). */
  lemma {:induction false} SelectBlock(rest: seq<Source>, timeline: seq<int>, k: int, id: string, mine: seq<Column>)
    requires StoreWellFormed(rest) && k < |rest|
    requires forall j :: 0 <= j < |rest| ==>
      Select(Joined(rest[j], timeline), id) == if j == k then mine else []
    ensures Select(Merged(rest, timeline), id) == if 0 <= k then mine else []
  {
    if |rest| > 0 {
      var head, tail := Joined(rest[0], timeline), Merged(rest[1..], timeline);
      SelectConcat(head, tail, id);
      assert forall j :: 0 <= j < |rest[1..]| ==> rest[1..][j] == rest[j + 1];
      SelectBlock(rest[1..], timeline, k - 1, id, mine);
      if k == 0 {
        assert mine + [] == mine;
      }
    }
  }

  /** Splitting the prefix off a source's own joined columns gives back its
      column names, and the cells at every step are its reindexed row. */
  lemma AlignOneOfJoined(store: seq<Source>, timeline: seq<int>, s: Source)
    requires StoreWellFormed(store) && Rectangular(s.frame)
    requires !Contains(s.id + "_", Sep)
    requires forall c :: 0 <= c < |s.frame.columns| ==> !Contains(s.frame.columns[c], Sep)
    requires Select(Merged(store, timeline), s.id) == Joined(s, timeline)
    ensures AlignOne(store, timeline, s.id).columns == s.frame.columns
    ensures forall i :: 0 <= i < |timeline| ==>
      RowCells(AlignOne(store, timeline, s.id), i) == Reindexed(s.frame, timeline[i])
  {
    var cols := Joined(s, timeline);
    var t := AlignOne(store, timeline, s.id);
    forall c | 0 <= c < |cols| ensures t.columns[c] == s.frame.columns[c] {
      SecondFieldOfPrefixed(s.id, s.frame.columns[c]);
    }
    forall i | 0 <= i < |timeline| ensures RowCells(t, i) == Reindexed(s.frame, timeline[i]) {
      forall c | 0 <= c < |cols| ensures RowCells(t, i)[c] == Reindexed(s.frame, timeline[i])[c] {
        assert t.data[c] == cols[c].values;
      }
    }
  }

  /** Under `Separable`, the aligned table of source `k` has the source's own
      column names and, at every step, exactly the source's reindexed row. */
  lemma AlignedTableOfSource(store: seq<Source>, k: int)
    requires StoreWellFormed(store) && Separable(store, k)
    ensures AlignStore(store)[k].table.columns == store[k].frame.columns
    ensures forall i :: 0 <= i < |GlobalTimeline(store)| ==>
      RowCells(AlignStore(store)[k].table, i) == Reindexed(store[k].frame, GlobalTimeline(store)[i])
  {
    var timeline := GlobalTimeline(store);
    forall j | 0 <= j < |store| ensures
      Select(Joined(store[j], timeline), store[k].id) == if j == k then Joined(store[k], timeline) else []
    {
      SelectJoined(store, timeline, k, j);
    }
    SelectBlock(store, timeline, k, store[k].id, Joined(store[k], timeline));
    AlignOneOfJoined(store, timeline, store[k]);
    assert AlignStore(store)[k].table == AlignOne(store, timeline, store[k].id);
  }

  /** The rows of a table that carry a value, in step order, as records: the
      inverse of the alignment. */
  function Restore(t: Table, from: nat): seq<Row>
    requires Shaped(t)
    decreases |t.index| - from
  {
    if from >= |t.index| then []
    else
      (if HasValue(RowCells(t, from)) then [Row(t.index[from], RowCells(t, from))] else [])
      + Restore(t, from + 1)
  }

  /** The same restoration read directly from a frame's reindexed rows. */
  function RestoreRows(timeline: seq<int>, f: Frame): seq<Row>
    requires Rectangular(f)
  {
    if |timeline| == 0 then []
    else
      (if HasValue(Reindexed(f, timeline[0])) then [Row(timeline[0], Reindexed(f, timeline[0]))] else [])
      + RestoreRows(timeline[1..], f)
  }

  lemma {:induction false} RestoreRowsLocal(timeline: seq<int>, f: Frame, g: Frame)
    requires Rectangular(f) && Rectangular(g) && f.columns == g.columns
    requires forall t :: t in timeline ==> RowAt(f.rows, t) == RowAt(g.rows, t)
    ensures RestoreRows(timeline, f) == RestoreRows(timeline, g)
  {
    if |timeline| > 0 {
      assert timeline[0] in timeline;
      RestoreRowsLocal(timeline[1..], f, g);
    }
  }

  /** Reindexing a frame on a timeline that holds all its timestamps and
      keeping the rows with a value gives back the frame's rows, provided
      every row had a value. */
  lemma {:induction false} RestoreRowsInverse(timeline: seq<int>, f: Frame)
    requires Increasing(timeline) && WellFormed(f)
    requires forall x :: x in f.rows ==> x.time in timeline && HasValue(x.cells)
    ensures RestoreRows(timeline, f) == f.rows
  {
    if |timeline| == 0 {
      RecordsNeedTimeline(timeline, f.rows);
    } else if |f.rows| == 0 {
      RestoreRowsInverse(timeline[1..], f);
    } else if timeline[0] == f.rows[0].time {
      var tail := HeadRecordRestored(timeline, f);
      RestoreRowsInverse(timeline[1..], tail);
      assert f.rows == [f.rows[0]] + tail.rows;
    } else {
      HeadStepSkipped(timeline, f);
      RestoreRowsInverse(timeline[1..], f);
    }
  }

  /** Records whose timestamps all lie on a timeline need a non-empty one. */
  lemma RecordsNeedTimeline(timeline: seq<int>, rows: seq<Row>)
    requires forall x :: x in rows ==> x.time in timeline
    ensures |rows| > 0 ==> |timeline| > 0
  {
    if |rows| > 0 {
      assert rows[0] in rows;
    }
  }

  /** The first global timestamp is the frame's first record: it is
      restored, and the rest of the timeline only sees the later records. */
  lemma HeadRecordRestored(timeline: seq<int>, f: Frame) returns (tail: Frame)
    requires Increasing(timeline) && WellFormed(f)
    requires forall x :: x in f.rows ==> x.time in timeline && HasValue(x.cells)
    requires |timeline| > 0 && |f.rows| > 0 && timeline[0] == f.rows[0].time
    ensures tail == Frame(f.columns, f.rows[1..]) && WellFormed(tail)
    ensures forall x :: x in tail.rows ==> x.time in timeline[1..] && HasValue(x.cells)
    ensures RestoreRows(timeline, f) == [f.rows[0]] + RestoreRows(timeline[1..], tail)
  {
    var x0 := f.rows[0];
    assert x0 in f.rows;
    tail := Frame(f.columns, f.rows[1..]);
    assert f.rows == [x0] + tail.rows;
    forall y | y in tail.rows ensures x0.time < y.time { LaterRows(f.rows, y); }
    forall t | t in timeline[1..] ensures RowAt(f.rows, t) == RowAt(tail.rows, t) {
      TailAbove(timeline, t);
    }
    RestoreRowsLocal(timeline[1..], f, tail);
    forall y | y in tail.rows ensures y.time in timeline[1..] {
      assert y in f.rows;
      var q :| 0 <= q < |timeline| && timeline[q] == y.time;
      assert timeline[1..][q - 1] == y.time;
    }
    assert RowAt(f.rows, timeline[0]) == Some(x0);
    assert Reindexed(f, timeline[0]) == x0.cells;
    assert HasValue(x0.cells);
  }

  /** The first global timestamp precedes the frame's first record: nothing
      is restored there, and every record lies in the rest of the timeline. */
  lemma HeadStepSkipped(timeline: seq<int>, f: Frame)
    requires Increasing(timeline) && WellFormed(f)
    requires forall x :: x in f.rows ==> x.time in timeline && HasValue(x.cells)
    requires |timeline| > 0 && |f.rows| > 0 && timeline[0] != f.rows[0].time
    ensures forall x :: x in f.rows ==> x.time in timeline[1..]
    ensures RestoreRows(timeline, f) == RestoreRows(timeline[1..], f)
  {
    var t0, x0 := timeline[0], f.rows[0];
    assert x0 in f.rows;
    var p :| 0 <= p < |timeline| && timeline[p] == x0.time;
    assert t0 <= timeline[p];
    forall y | y in f.rows ensures t0 < y.time {
      var q :| 0 <= q < |f.rows| && f.rows[q] == y;
      assert x0.time <= y.time;
    }
    assert RowAt(f.rows, t0) == None;
    assert !HasValue(Reindexed(f, t0));
    forall y | y in f.rows ensures y.time in timeline[1..] {
      var q :| 0 <= q < |timeline| && timeline[q] == y.time;
      assert timeline[1..][q - 1] == y.time;
    }
  }

  lemma {:induction false} RestoreMatchesRows(t: Table, f: Frame, from: nat)
    requires Shaped(t) && Rectangular(f) && from <= |t.index|
    requires forall i :: 0 <= i < |t.index| ==> RowCells(t, i) == Reindexed(f, t.index[i])
    ensures Restore(t, from) == RestoreRows(t.index[from..], f)
    decreases |t.index| - from
  {
    if from < |t.index| {
      assert t.index[from..][1..] == t.index[from + 1..];
      RestoreMatchesRows(t, f, from + 1);
    }
  }

  /** ROUND TRIP: under `Separable`, and when every in-window record carries
      at least one value, restricting source `k`'s aligned table to the rows
      with a value gives back exactly its windowed frame: same columns, same
      records, same order. */
  lemma AlignRoundTrip(store: seq<Source>, k: int)
    requires StoreWellFormed(store) && Separable(store, k)
    requires forall x :: x in store[k].frame.rows ==> HasValue(x.cells)
    ensures AlignStore(store)[k].table.columns == store[k].frame.columns
    ensures Restore(AlignStore(store)[k].table, 0) == store[k].frame.rows
  {
    var timeline := GlobalTimeline(store);
    var f := store[k].frame;
    var t := AlignStore(store)[k].table;
    AlignedTableOfSource(store, k);
    RestoreMatchesRows(t, f, 0);
    assert t.index[0..] == timeline;
    forall x | x in f.rows ensures x.time in timeline {
      TimesMembership(f.rows, x.time);
    }
    RestoreRowsInverse(timeline, f);
  }

  /** CHANGE MATRIX: under `Separable`, the monitor marks source `k` at step
      `i` exactly when the source has its own record at that timestamp and
      that record carries a value; a step where only other sources moved is
      never marked. */
  lemma MonitorMarksRecords(store: seq<Source>, k: int, i: int)
    requires StoreWellFormed(store) && Separable(store, k)
    requires 0 <= i < |GlobalTimeline(store)|
    ensures SameIndex(AlignStore(store))
    ensures BuildMonitor(AlignStore(store)).changed[i][k] <==>
      exists x :: x in store[k].frame.rows && x.time == GlobalTimeline(store)[i] && HasValue(x.cells)
  {
    var timeline := GlobalTimeline(store);
    AlignedTableOfSource(store, k);
    var f := store[k].frame;
    var t := timeline[i];
    match RowAt(f.rows, t)
    case Some(x) =>
      forall y | y in f.rows && y.time == t ensures y == x {
        var a :| 0 <= a < |f.rows| && f.rows[a] == x;
        var b :| 0 <= b < |f.rows| && f.rows[b] == y;
        assert !(a < b) && !(b < a);
      }
    case None =>
      assert !HasValue(Reindexed(f, t));
  }
}

=== FILE: backtest.dfy ===
/** The `Backtest` class, `run` option: build the episode, create one market
    per market identifier, then replay the episode step by step — first
    every updated market takes its new book and trades state and matches
    the agent's standing orders, then (once buffering is over) the agent is
    told about every updated source — and finally clear the market, order
    and trade registries. The markets and the agent are outside this model;
    what is modelled is the sequence of calls the replay makes on them. */
module Backtest {
  import opened Wrappers
  import opened Text
  import opened Seqs
  import opened Frames
  import opened Align
  import opened Sources
  import opened Episodes

  /** The trades argument of `MarketState.update`: the source's row, or the
      empty series passed when the market's trades source did not change. */
  datatype Trades = TradesRow(row: Row) | NoTrades

  /** One call the replay makes on a market, on the agent or on a registry. */
  datatype Call =
    | CreateMarket(market: string)
    | UpdateMarket(market: string, book: Option<Row>, trades: Trades)
    | MatchOrders(market: string)
    | OnQuote(market: string, quote: Row)
    | OnTrade(market: string, trade: Row)
    | OnTime(time: int, next: int)
    | ResetMarkets
    | ResetOrders
    | ResetTrades

  predicate IsMarketCall(c: Call)
  {
    c.UpdateMarket? || c.MatchOrders?
  }

  predicate IsAgentCall(c: Call)
  {
    c.OnQuote? || c.OnTrade? || c.OnTime?
  }

  predicate IsReset(c: Call)
  {
    c.ResetMarkets? || c.ResetOrders? || c.ResetTrades?
  }

  /** Why a run ends early: the episode could not be built, or a changed
      source has an identifier that is neither a book nor a trades source. */
  datatype RunError = EpisodeFailed(cause: SetupError) | UnknownSource(id: string)

  /** What a run did before it returned or raised. */
  datatype Outcome = Outcome(calls: seq<Call>, failure: Option<RunError>)

  /** `identifier.split(".")[0]`. */
  function MarketOf(id: string): string
  {
    FirstField(id, '.')
  }

  /** The distinct markets of a list of identifiers, in order of first
      occurrence (the iteration order of the set built from them). */
  function Markets(ids: seq<string>): (r: seq<string>)
    ensures forall m :: m in r <==> exists i :: 0 <= i < |ids| && MarketOf(ids[i]) == m
    ensures forall i, j :: 0 <= i < j < |r| ==> r[i] != r[j]
  {
    var all := seq(|ids|, i requires 0 <= i < |ids| => MarketOf(ids[i]));
    forall m ensures m in all <==> exists i :: 0 <= i < |ids| && MarketOf(ids[i]) == m {
      if m in all {
        var i :| 0 <= i < |all| && all[i] == m;
      }
      if exists i :: 0 <= i < |ids| && MarketOf(ids[i]) == m {
        var i :| 0 <= i < |ids| && MarketOf(ids[i]) == m;
        assert all[i] == m;
      }
    }
    Distinct(all)
  }

  /** The identifiers of an update, in yield order. */
  function Keys(update: seq<(string, Row)>): (r: seq<string>)
    ensures |r| == |update| && forall i :: 0 <= i < |update| ==> r[i] == update[i].0
  {
    seq(|update|, i requires 0 <= i < |update| => update[i].0)
  }

  /** `update_store.get(key)`: the row under `key`, if any. */
  function Lookup(update: seq<(string, Row)>, key: string): (r: Option<Row>)
    ensures r.Some? ==> (key, r.value) in update
    ensures r.None? ==> forall e :: e in update ==> e.0 != key
  {
    if |update| == 0 then None
    else if update[0].0 == key then Some(update[0].1)
    else
      assert update == [update[0]] + update[1..];
      Lookup(update[1..], key)
  }

  /** The book argument of a market's update: its book source's row if that
      source changed, and nothing otherwise. */
  function BookOf(update: seq<(string, Row)>, market: string): (r: Option<Row>)
    ensures r.Some? <==> exists x :: (market + ".BOOK", x) in update
    ensures r.Some? ==> (market + ".BOOK", r.value) in update
  {
    Lookup(update, market + ".BOOK")
  }

  /** The trades argument of a market's update: its trades source's row if
      that source changed, and the empty series otherwise. */
  function TradesOf(update: seq<(string, Row)>, market: string): (r: Trades)
    ensures r == NoTrades <==> forall e :: e in update ==> e.0 != market + ".TRADES"
    ensures r.TradesRow? ==> (market + ".TRADES", r.row) in update
  {
    match Lookup(update, market + ".TRADES")
    case Some(x) => TradesRow(x)
    case None => NoTrades
  }

  /** `_market_step` for each market in turn: update, then match. */
  function MarketCalls(update: seq<(string, Row)>, markets: seq<string>): (r: seq<Call>)
    ensures |r| == 2 * |markets|
    ensures forall j :: 0 <= j < |markets| ==>
      r[2 * j] == UpdateMarket(markets[j], BookOf(update, markets[j]), TradesOf(update, markets[j]))
    ensures forall j :: 0 <= j < |markets| ==> r[2 * j + 1] == MatchOrders(markets[j])
  {
    if |markets| == 0 then []
    else
      var m := markets[0];
      [UpdateMarket(m, BookOf(update, m), TradesOf(update, m)), MatchOrders(m)]
      + MarketCalls(update, markets[1..])
  }

  /** Market steps only touch the markets they are given. */
  lemma MarketCallsTouch(update: seq<(string, Row)>, markets: seq<string>, c: Call)
    requires c in MarketCalls(update, markets)
    ensures IsMarketCall(c) && c.market in markets
  {
    var r := MarketCalls(update, markets);
    var p :| 0 <= p < |r| && r[p] == c;
    var j := p / 2;
    assert p == 2 * j || p == 2 * j + 1;
  }

  /** The identifiers `_agent_step` accepts. */
  predicate Known(id: string)
  {
    EndsWith(id, "BOOK") || EndsWith(id, "TRADES")
  }

  /** The notification `_agent_step` sends for a known identifier: a book
      suffix wins over a trades suffix. */
  function Notify(id: string, row: Row): Call
  {
    if EndsWith(id, "BOOK") then OnQuote(MarketOf(id), row) else OnTrade(MarketOf(id), row)
  }

  /** The position of the first changed source `_agent_step` rejects. */
  function FirstUnknown(update: seq<(string, Row)>): (r: Option<nat>)
    ensures r.None? <==> forall j :: 0 <= j < |update| ==> Known(update[j].0)
    ensures r.Some? ==> r.value < |update| && !Known(update[r.value].0)
    ensures r.Some? ==> forall j :: 0 <= j < r.value ==> Known(update[j].0)
  {
    if |update| == 0 then None
    else if !Known(update[0].0) then Some(0)
    else
      assert forall j :: 1 <= j < |update| ==> update[j] == update[1..][j - 1];
      match FirstUnknown(update[1..])
      case None => None
      case Some(j) => Some(j + 1)
  }

  /** The notification and the `on_time` call for each source in turn. */
  function Notifications(update: seq<(string, Row)>, t: int, next: int): (r: seq<Call>)
    ensures |r| == 2 * |update|
    ensures forall j :: 0 <= j < |update| ==> r[2 * j] == Notify(update[j].0, update[j].1)
    ensures forall k :: 0 <= k < |r| && k % 2 == 1 ==> r[k] == OnTime(t, next)
  {
    if |update| == 0 then []
    else
      var rest := Notifications(update[1..], t, next);
      var r := [Notify(update[0].0, update[0].1), OnTime(t, next)] + rest;
      assert forall j :: 1 <= j < |update| ==> update[j] == update[1..][j - 1];
      assert forall j :: 1 <= j < |update| ==> r[2 * j] == rest[2 * (j - 1)];
      assert forall k :: 2 <= k < |r| ==> r[k] == rest[k - 2];
      r
  }

  /** Notifications are agent calls, and the only time they report is `t`
      to `next`. */
  lemma NotificationsAreAgentCalls(update: seq<(string, Row)>, t: int, next: int, c: Call)
    requires c in Notifications(update, t, next)
    ensures IsAgentCall(c) && (c.OnTime? ==> c == OnTime(t, next))
  {
    var r := Notifications(update, t, next);
    var p :| 0 <= p < |r| && r[p] == c;
    if p % 2 == 0 {
      assert p == 2 * (p / 2);
    }
  }

  /** `_agent_step` for each changed source in turn; an unknown identifier
      raises, after the calls for the sources before it. */
  function AgentCalls(update: seq<(string, Row)>, t: int, next: int): (o: Outcome)
    ensures o.failure.None? <==> forall j :: 0 <= j < |update| ==> Known(update[j].0)
    ensures o.failure.None? ==> o.calls == Notifications(update, t, next)
    ensures o.failure.Some? ==> (
      && FirstUnknown(update).Some?
      && o.failure.value == UnknownSource(update[FirstUnknown(update).value].0)
      && o.calls == Notifications(update[..FirstUnknown(update).value], t, next))
  {
    match FirstUnknown(update)
    case None => Outcome(Notifications(update, t, next), None)
    case Some(j) => Outcome(Notifications(update[..j], t, next), Some(UnknownSource(update[j].0)))
  }

  /** The agent loop makes only agent calls, and the only time it reports
      is `t` to `next`, whether or not it raises. */
  lemma AgentLoopCall(update: seq<(string, Row)>, t: int, next: int, c: Call)
    requires c in AgentCalls(update, t, next).calls
    ensures IsAgentCall(c) && (c.OnTime? ==> c == OnTime(t, next))
  {
    match FirstUnknown(update)
    case None => NotificationsAreAgentCalls(update, t, next, c);
    case Some(j) => NotificationsAreAgentCalls(update[..j], t, next, c);
  }

  /** The markets touched by an update, each once. */
  function UpdatedMarkets(update: seq<(string, Row)>): (r: seq<string>)
    ensures forall m :: m in r <==> exists e :: e in update && MarketOf(e.0) == m
    ensures forall i, j :: 0 <= i < j < |r| ==> r[i] != r[j]
  {
    var ms := Markets(Keys(update));
    assert forall m :: m in ms <==> exists e :: e in update && MarketOf(e.0) == m by {
      forall m | m in ms ensures exists e :: e in update && MarketOf(e.0) == m {
        var i :| 0 <= i < |update| && MarketOf(Keys(update)[i]) == m;
        assert update[i] in update;
      }
      forall e | e in update ensures MarketOf(e.0) in ms {
        var i :| 0 <= i < |update| && update[i] == e;
        assert MarketOf(Keys(update)[i]) == MarketOf(e.0);
      }
    }
    ms
  }

  /** DISPATCH of one changed source: a `BOOK` suffix gives `on_quote`, a
      `TRADES` suffix `on_trade`, each for the market before the first `.`
      and followed by `on_time`; any other suffix raises without a call. */
  lemma DispatchOne(id: string, row: Row, t: int, next: int)
    ensures EndsWith(id, "BOOK") ==>
      AgentCalls([(id, row)], t, next) == Outcome([OnQuote(MarketOf(id), row), OnTime(t, next)], None)
    ensures !EndsWith(id, "BOOK") && EndsWith(id, "TRADES") ==>
      AgentCalls([(id, row)], t, next) == Outcome([OnTrade(MarketOf(id), row), OnTime(t, next)], None)
    ensures !Known(id) ==> AgentCalls([(id, row)], t, next) == Outcome([], Some(UnknownSource(id)))
  {
    var u := [(id, row)];
    if Known(id) {
      var r := Notifications(u, t, next);
      assert r[2 * 0] == Notify(id, row);
      assert r == [r[0], r[1]];
    } else {
      assert FirstUnknown(u) == Some(0);
      assert u[..0] == [];
    }
  }

  /** One step of the replay loop in `run`: market steps for every updated
      market, then, unless buffering, agent steps for every changed source. */
  function Tick(s: Step): (o: Outcome)
    ensures s.buffering ==> o.failure.None? && forall c :: c in o.calls ==> !IsAgentCall(c)
    ensures !s.buffering ==> o.failure == AgentCalls(s.update, s.time, s.next).failure
  {
    var markets := MarketCalls(s.update, UpdatedMarkets(s.update));
    if s.buffering then
      forall c | c in markets ensures !IsAgentCall(c) {
        MarketCallsTouch(s.update, UpdatedMarkets(s.update), c);
      }
      Outcome(markets, None)
    else
      var agent := AgentCalls(s.update, s.time, s.next);
      Outcome(markets + agent.calls, agent.failure)
  }

  /** ORDER WITHIN A STEP: first update-then-match for each updated market,
      each market once, then only agent calls. */
  lemma TickOrder(s: Step)
    ensures |Tick(s).calls| >= 2 * |UpdatedMarkets(s.update)|
    ensures Tick(s).calls[..2 * |UpdatedMarkets(s.update)|] == MarketCalls(s.update, UpdatedMarkets(s.update))
    ensures forall c :: c in Tick(s).calls[2 * |UpdatedMarkets(s.update)|..] ==> IsAgentCall(c)
  {
    var markets := MarketCalls(s.update, UpdatedMarkets(s.update));
    var o := Tick(s);
    if !s.buffering {
      var agent := AgentCalls(s.update, s.time, s.next);
      assert o.calls[..|markets|] == markets;
      assert o.calls[|markets|..] == agent.calls;
      forall c | c in agent.calls ensures IsAgentCall(c) {
        AgentLoopCall(s.update, s.time, s.next, c);
      }
    } else {
      assert o.calls[|markets|..] == [];
    }
  }

  /** What any single call of a step can be: never a creation or a reset;
      a market call names an updated market; an `on_time` call reports this
      step's and the next timestamp, and only after buffering. */
  lemma TickCall(s: Step, c: Call)
    requires c in Tick(s).calls
    ensures !IsReset(c) && !c.CreateMarket?
    ensures IsMarketCall(c) ==> c.market in UpdatedMarkets(s.update)
    ensures c.OnTime? ==> c == OnTime(s.time, s.next) && !s.buffering
  {
    var markets := MarketCalls(s.update, UpdatedMarkets(s.update));
    if c in markets {
      MarketCallsTouch(s.update, UpdatedMarkets(s.update), c);
    } else {
      var agent := AgentCalls(s.update, s.time, s.next);
      assert !s.buffering && Tick(s).calls == markets + agent.calls;
      assert c in agent.calls;
      AgentLoopCall(s.update, s.time, s.next, c);
    }
  }

  /** The replay loop: the steps in order, stopping at the first one that
      raises. */
  function Ticks(steps: seq<Step>): (o: Outcome)
  {
    if |steps| == 0 then Outcome([], None)
    else
      var first := Tick(steps[0]);
      if first.failure.Some? then first
      else
        var rest := Ticks(steps[1..]);
        Outcome(first.calls + rest.calls, rest.failure)
  }

  /** Every call of the loop is a call of one of its steps. */
  lemma {:induction false} TicksFromSteps(steps: seq<Step>, c: Call)
    requires c in Ticks(steps).calls
    ensures exists j :: 0 <= j < |steps| && c in Tick(steps[j]).calls
  {
    var first := Tick(steps[0]);
    if first.failure.None? && c !in first.calls {
      TicksFromSteps(steps[1..], c);
      var j :| 0 <= j < |steps[1..]| && c in Tick(steps[1..][j]).calls;
      assert steps[1..][j] == steps[j + 1];
    }
  }

  /** The loop runs to the end exactly when no step raises. */
  lemma {:induction false} TicksSucceed(steps: seq<Step>)
    ensures Ticks(steps).failure.None? <==> forall j :: 0 <= j < |steps| ==> Tick(steps[j]).failure.None?
  {
    if |steps| > 0 {
      TicksSucceed(steps[1..]);
      assert forall j :: 1 <= j < |steps| ==> steps[j] == steps[1..][j - 1];
      if Tick(steps[0]).failure.None? {
        assert Ticks(steps).failure == Ticks(steps[1..]).failure;
      }
    }
  }

  /** The replay loop neither creates a market nor clears a registry. */
  lemma ReplayMakesNoSetupCall(steps: seq<Step>, c: Call)
    requires c in Ticks(steps).calls
    ensures !IsReset(c) && !c.CreateMarket?
  {
    TicksFromSteps(steps, c);
    var j :| 0 <= j < |steps| && c in Tick(steps[j]).calls;
    TickCall(steps[j], c);
  }

  function Creations(markets: seq<string>): (r: seq<Call>)
    ensures |r| == |markets| && forall j :: 0 <= j < |markets| ==> r[j] == CreateMarket(markets[j])
  {
    seq(|markets|, j requires 0 <= j < |markets| => CreateMarket(markets[j]))
  }

  const Resets: seq<Call> := [ResetMarkets, ResetOrders, ResetTrades]

  /** The part of `Backtest.run` after the episode is built: the creations,
      the replay loop, and the resets once the loop has run to the end. */
  function CreateAndReplay(created: seq<Call>, steps: seq<Step>): (o: Outcome)
    requires forall c :: c in created ==> c.CreateMarket?
    ensures |o.calls| >= |created| && o.calls[..|created|] == created
    ensures o.failure == Ticks(steps).failure
    ensures o.failure.None? ==> |o.calls| >= 3 && o.calls[|o.calls| - 3..] == Resets
    ensures o.failure.Some? ==> forall c :: c in o.calls ==> !IsReset(c)
    ensures forall c :: c in o.calls && !c.CreateMarket? && !IsReset(c) ==> c in Ticks(steps).calls
    ensures o.failure.None? ==> forall c :: c in Ticks(steps).calls ==> c in o.calls
  {
    var replay := Ticks(steps);
    if replay.failure.None? then
      var o := Outcome(created + replay.calls + Resets, None);
      assert o.calls[..|created|] == created;
      o
    else
      var o := Outcome(created + replay.calls, replay.failure);
      assert o.calls[..|created|] == created;
      forall c | c in o.calls ensures !IsReset(c) {
        if c !in created {
          ReplayMakesNoSetupCall(steps, c);
        }
      }
      o
  }

  /** What a run relies on from episode construction: a built episode is
      valid, available, keeps its records inside its window, and has only
      requested identifiers among its sources. */
  predicate Built(ids: seq<string>, built: Result<Episode, SetupError>)
  {
    built.Ok? ==>
      && Valid(built.value) && built.value.available
      && InWindow(built.value.sources, built.value.bufferStart, built.value.end)
      && forall k :: 0 <= k < |built.value.sources| ==> built.value.sources[k].id in ids
  }

  /** Episode construction always delivers what a run relies on. */
  lemma SetupIsBuilt(ids: seq<string>, bufferStart: int, start: int, end: int, files: seq<SourceFile>)
    ensures Built(ids, Setup(ids, bufferStart, start, end, files))
  {
  }

  /** The rest of `Backtest.run` once construction has been tried: nothing
      happens when it raised; otherwise the markets are created and the
      episode is replayed. */
  function Execute(ids: seq<string>, built: Result<Episode, SetupError>): (o: Outcome)
    requires Built(ids, built)
    ensures built.Err? ==> o == Outcome([], Some(EpisodeFailed(built.error)))
    ensures built.Ok? ==> |o.calls| >= |Markets(ids)| && o.calls[..|Markets(ids)|] == Creations(Markets(ids))
    ensures o.failure.None? ==> |o.calls| >= 3 && o.calls[|o.calls| - 3..] == Resets
    ensures o.failure.Some? ==> forall c :: c in o.calls ==> !IsReset(c)
  {
    match built
    case Err(e) => Outcome([], Some(EpisodeFailed(e)))
    case Ok(ep) => CreateAndReplay(Creations(Markets(ids)), Iterate(ep))
  }

  /** `Backtest.run`: the episode is built first, and nothing happens when
      that fails; otherwise the markets are created, the episode is
      replayed, and only a replay that does not raise clears the registries. */
  function Run(ids: seq<string>, bufferStart: int, start: int, end: int, files: seq<SourceFile>): (o: Outcome)
    ensures Setup(ids, bufferStart, start, end, files).Err? ==>
      o == Outcome([], Some(EpisodeFailed(Setup(ids, bufferStart, start, end, files).error)))
    ensures Setup(ids, bufferStart, start, end, files).Ok? ==>
      |o.calls| >= |Markets(ids)| && o.calls[..|Markets(ids)|] == Creations(Markets(ids))
    ensures o.failure.None? ==> |o.calls| >= 3 && o.calls[|o.calls| - 3..] == Resets
    ensures o.failure.Some? ==> forall c :: c in o.calls ==> !IsReset(c)
  {
    SetupIsBuilt(ids, bufferStart, start, end, files);
    Execute(ids, Setup(ids, bufferStart, start, end, files))
  }

  // ---- properties of a whole run ----

  /** Apart from creations and resets, every call of a run is a call of
      the replay loop of its episode. */
  lemma RunCallFromReplay(ids: seq<string>, built: Result<Episode, SetupError>, c: Call)
    requires Built(ids, built)
    requires c in Execute(ids, built).calls && !c.CreateMarket? && !IsReset(c)
    ensures built.Ok? && c in Ticks(Iterate(built.value)).calls
  {
  }

  /** Every identifier in an update of a valid episode names one of its
      sources. */
  lemma UpdateIdsAreSources(ep: Episode, j: int, e: (string, Row))
    requires Valid(ep) && ep.available && 0 <= j < |Iterate(ep)| && e in Iterate(ep)[j].update
    ensures exists k :: 0 <= k < |ep.sources| && e.0 == ep.sources[k].id
  {
    UpdateIsMarkedRows(ep, j, e.0, e.1);
    ValidShape(ep);
  }

  /** Every market call of the replay names the market of one of the
      episode's sources. */
  lemma ReplayMarketCall(ep: Episode, c: Call)
    requires Valid(ep) && ep.available && c in Ticks(Iterate(ep)).calls && IsMarketCall(c)
    ensures exists k :: 0 <= k < |ep.sources| && c.market == MarketOf(ep.sources[k].id)
  {
    TicksFromSteps(Iterate(ep), c);
    var j :| 0 <= j < |Iterate(ep)| && c in Tick(Iterate(ep)[j]).calls;
    TickCall(Iterate(ep)[j], c);
    var e :| e in Iterate(ep)[j].update && MarketOf(e.0) == c.market;
    UpdateIdsAreSources(ep, j, e);
  }

  /** MARKETS EXIST BEFORE USE: every update or match in a run names a
      market that was created at the start of the run. */
  lemma MarketsCreatedBeforeUse(ids: seq<string>, built: Result<Episode, SetupError>, c: Call)
    requires Built(ids, built)
    requires c in Execute(ids, built).calls && IsMarketCall(c)
    ensures |Execute(ids, built).calls| >= |Markets(ids)|
    ensures CreateMarket(c.market) in Execute(ids, built).calls[..|Markets(ids)|]
  {
    RunCallFromReplay(ids, built, c);
    ReplayCreatesMarket(built.value, ids, c);
  }

  /** A market called during the replay of an episode built from `ids` is
      created for `ids`. */
  lemma ReplayCreatesMarket(ep: Episode, ids: seq<string>, c: Call)
    requires Valid(ep) && ep.available && c in Ticks(Iterate(ep)).calls && IsMarketCall(c)
    requires forall k :: 0 <= k < |ep.sources| ==> ep.sources[k].id in ids
    ensures CreateMarket(c.market) in Creations(Markets(ids))
  {
    ReplayMarketCall(ep, c);
    var k :| 0 <= k < |ep.sources| && c.market == MarketOf(ep.sources[k].id);
    MarketCreated(ids, ep.sources[k].id);
  }

  /** The market of every requested identifier is created. */
  lemma MarketCreated(ids: seq<string>, id: string)
    requires id in ids
    ensures CreateMarket(MarketOf(id)) in Creations(Markets(ids))
  {
    var i :| 0 <= i < |ids| && ids[i] == id;
    var ms := Markets(ids);
    assert MarketOf(ids[i]) in ms;
    var p :| 0 <= p < |ms| && ms[p] == MarketOf(id);
    assert Creations(ms)[p] == CreateMarket(MarketOf(id));
  }

  /** Every `on_time` call of the replay comes after buffering and reports
      timestamps inside the episode window. */
  lemma ReplayOnTime(ep: Episode, c: Call)
    requires Valid(ep) && ep.available && InWindow(ep.sources, ep.bufferStart, ep.end)
    requires c in Ticks(Iterate(ep)).calls && c.OnTime?
    ensures ep.start <= c.time <= c.next <= ep.end
  {
    TicksFromSteps(Iterate(ep), c);
    var j :| 0 <= j < |Iterate(ep)| && c in Tick(Iterate(ep)[j]).calls;
    var s := Iterate(ep)[j];
    TickCall(s, c);
    assert c == OnTime(s.time, s.next) && !s.buffering;
    NextTimestamp(ep, j);
    var index := ep.monitor.index;
    assert s == StepAt(ep, j);
    var n := NextIndex(j, |index|);
    assert s.next == index[n] && index[n] in index;
    TimelineIsWindowedUnion(ep);
  }

  /** The agent is told the time only after buffering, and only timestamps
      inside the episode: start <= this <= next <= end. */
  lemma OnTimeWithinEpisode(ids: seq<string>, built: Result<Episode, SetupError>, c: Call)
    requires Built(ids, built)
    requires c in Execute(ids, built).calls && c.OnTime?
    ensures built.Ok? && built.value.start <= c.time <= c.next <= built.value.end
  {
    RunCallFromReplay(ids, built, c);
    ReplayOnTime(built.value, c);
  }

  /** Once the loop has run to the end, every call of every step is in it. */
  lemma {:induction false} TicksKeepSteps(steps: seq<Step>, j: int, c: Call)
    requires Ticks(steps).failure.None? && 0 <= j < |steps| && c in Tick(steps[j]).calls
    ensures c in Ticks(steps).calls
  {
    var first := Tick(steps[0]);
    var rest := Ticks(steps[1..]);
    assert Ticks(steps) == Outcome(first.calls + rest.calls, rest.failure);
    if j == 0 {
      assert c in first.calls;
    } else {
      assert steps[1..][j - 1] == steps[j];
      TicksKeepSteps(steps[1..], j - 1, c);
      assert c in rest.calls;
    }
  }

  /** THE AGENT SEES EVERY RECORD: in a run that completes, every in-window
      record with a value, at a timestamp past buffering, reaches the agent
      as a quote or trade notification of its source (for a source whose
      columns come back intact). */
  lemma AgentToldEveryRecord(ids: seq<string>, built: Result<Episode, SetupError>, j: int, k: int, x: Row)
    requires Built(ids, built) && built.Ok? && Execute(ids, built).failure.None?
    requires var ep := built.value;
      && 0 <= j < |Iterate(ep)| && !Iterate(ep)[j].buffering
      && Separable(ep.sources, k)
      && x in ep.sources[k].frame.rows && x.time == Iterate(ep)[j].time && HasValue(x.cells)
    ensures Notify(built.value.sources[k].id, x) in Execute(ids, built).calls
  {
    ReplayTellsRecord(built.value, j, k, x);
  }

  /** In a replay that runs to the end, a record of a separable source at a
      trading step is notified to the agent. */
  lemma ReplayTellsRecord(ep: Episode, j: int, k: int, x: Row)
    requires Valid(ep) && ep.available && Ticks(Iterate(ep)).failure.None?
    requires 0 <= j < |Iterate(ep)| && !Iterate(ep)[j].buffering
    requires Separable(ep.sources, k)
    requires x in ep.sources[k].frame.rows && x.time == Iterate(ep)[j].time && HasValue(x.cells)
    ensures Notify(ep.sources[k].id, x) in Ticks(Iterate(ep)).calls
  {
    var s := Iterate(ep)[j];
    var id := ep.sources[k].id;
    UpdateCarriesRecords(ep, j, k, x);
    var p :| 0 <= p < |s.update| && s.update[p] == (id, x);
    TicksSucceed(Iterate(ep));
    var markets := MarketCalls(s.update, UpdatedMarkets(s.update));
    var agent := AgentCalls(s.update, s.time, s.next);
    assert agent.calls[2 * p] == Notify(id, x);
    assert Tick(s).calls == markets + agent.calls;
    assert Notify(id, x) in Tick(s).calls;
    TicksKeepSteps(Iterate(ep), j, Notify(id, x));
  }
}

=== FILE: clock.dfy ===
/** Timestamps are timezone-naive integers in nanoseconds since
    1970-01-01 00:00, as a pandas `Timestamp` stores them. This module gives
    them the calendar meaning `Timestamp.date()`, `Timestamp.time()` and
    `Timestamp.weekday()` give them, and the `YYYYMMDD` date string. */
module Clock {
  import opened Wrappers
  import opened Text

  const SecondNs: int := 1_000_000_000
  const MinuteNs: int := 60 * SecondNs
  const DayNs: int := 86_400 * SecondNs

  /** Days since 1970-01-01 (floor division: Dafny's `/` by a positive
      divisor rounds down, as Python's `//` does). */
  function DayOf(t: int): int
  {
    t / DayNs
  }

  /** `t.time()` in microseconds after midnight: `datetime.time` has no
      nanosecond field, so the last three digits are dropped. */
  function TimeOfDayMicros(t: int): (r: int)
    ensures 0 <= r < 86_400_000_000
    ensures DayOf(t) * DayNs + r * 1000 <= t < DayOf(t) * DayNs + r * 1000 + 1000
  {
    (t % DayNs) / 1000
  }

  /** `datetime.time(h, m, s)` in microseconds after midnight. */
  function ClockTime(h: nat, m: nat, s: nat): int
  {
    ((h * 60 + m) * 60 + s) * 1_000_000
  }

  /** `t.weekday()`: Monday is 0, Sunday is 6; 1970-01-01 was a Thursday. */
  function Weekday(t: int): (r: int)
    ensures 0 <= r < 7
  {
    (DayOf(t) + 3) % 7
  }

  /** 1970-01-05 was a Monday, and each following day is the next weekday. */
  lemma WeekdayCycle(t: int)
    ensures Weekday(4 * DayNs) == 0
    ensures Weekday(t + DayNs) == (Weekday(t) + 1) % 7
  {
    assert DayOf(t + DayNs) == DayOf(t) + 1;
  }

  // ---- the proleptic Gregorian calendar ----

  datatype Date = Date(year: int, month: int, day: int)

  predicate IsLeap(y: int)
  {
    y % 4 == 0 && (y % 100 != 0 || y % 400 == 0)
  }

  function DaysInYear(y: int): int
  {
    if IsLeap(y) then 366 else 365
  }

  function DaysInMonth(y: int, m: int): int
    requires 1 <= m <= 12
  {
    if m == 2 then (if IsLeap(y) then 29 else 28)
    else if m == 4 || m == 6 || m == 9 || m == 11 then 30
    else 31
  }

  /** Days in year `y` before the first of month `m`. */
  function MonthStart(y: int, m: int): int
    requires 1 <= m <= 12
  {
    if m == 1 then 0 else MonthStart(y, m - 1) + DaysInMonth(y, m - 1)
  }

  predicate ValidDate(d: Date)
  {
    1 <= d.month <= 12 && 1 <= d.day <= DaysInMonth(d.year, d.month)
  }

  /** Day number of 1 January of year `y`. */
  function YearStart(y: int): int
    decreases if y < 1970 then 1970 - y else y - 1970
  {
    if y == 1970 then 0
    else if y > 1970 then YearStart(y - 1) + DaysInYear(y - 1)
    else YearStart(y + 1) - DaysInYear(y)
  }

  /** Day number of a calendar date: the reference the conversion below is
      checked against. */
  function DaysFromCivil(d: Date): int
    requires ValidDate(d)
  {
    YearStart(d.year) + MonthStart(d.year, d.month) + d.day - 1
  }

  lemma YearStartStep(y: int)
    ensures YearStart(y + 1) == YearStart(y) + DaysInYear(y)
  {
  }

  lemma MonthsFillYear(y: int)
    ensures MonthStart(y, 12) + DaysInMonth(y, 12) == DaysInYear(y)
  {
    var leap := if IsLeap(y) then 1 else 0;
    assert MonthStart(y, 2) == 31;
    assert MonthStart(y, 3) == 59 + leap;
    assert MonthStart(y, 4) == 90 + leap;
    assert MonthStart(y, 5) == 120 + leap;
    assert MonthStart(y, 6) == 151 + leap;
    assert MonthStart(y, 7) == 181 + leap;
    assert MonthStart(y, 8) == 212 + leap;
    assert MonthStart(y, 9) == 243 + leap;
    assert MonthStart(y, 10) == 273 + leap;
    assert MonthStart(y, 11) == 304 + leap;
    assert MonthStart(y, 12) == 334 + leap;
  }

  /** Walks from year `y`, offset `o` days into it, to the year the day
      falls in, keeping the day number fixed. */
  function LocateYear(y: int, o: int): (r: (int, int))
    decreases (if o < 0 then 1 else 0), (if o < 0 then -o else o)
    ensures 0 <= r.1 < DaysInYear(r.0)
    ensures YearStart(r.0) + r.1 == YearStart(y) + o
  {
    if o < 0 then
      YearStartStep(y - 1);
      LocateYear(y - 1, o + DaysInYear(y - 1))
    else if o >= DaysInYear(y) then
      YearStartStep(y);
      LocateYear(y + 1, o - DaysInYear(y))
    else (y, o)
  }

  /** The month, from `m` on, holding day `doy` of year `y`. */
  function LocateMonth(y: int, doy: int, m: int): (r: int)
    requires 1 <= m <= 12 && MonthStart(y, m) <= doy < DaysInYear(y)
    decreases 12 - m
    ensures 1 <= r <= 12
    ensures MonthStart(y, r) <= doy < MonthStart(y, r) + DaysInMonth(y, r)
  {
    if m == 12 then
      MonthsFillYear(y);
      m
    else if doy < MonthStart(y, m) + DaysInMonth(y, m) then m
    else LocateMonth(y, doy, m + 1)
  }

  /** `Timestamp.date()` on a day number: a valid date that maps back to it. */
  function CivilFromDays(z: int): (d: Date)
    ensures ValidDate(d) && DaysFromCivil(d) == z
  {
    var (y, doy) := LocateYear(1970, z);
    var m := LocateMonth(y, doy, 1);
    Date(y, m, doy - MonthStart(y, m) + 1)
  }

  /** `str(t.date()).replace("-", "")`. Python's `date` only holds years
      1 to 9999; outside that range there is no string. */
  function DateString(t: int): Option<string>
  {
    var d := CivilFromDays(DayOf(t));
    if 1 <= d.year <= 9999 then
      Some(Padded(d.year, 4) + Padded(d.month, 2) + Padded(d.day, 2))
    else None
  }

  /** Reads a `YYYYMMDD` string back into a date. */
  function ParseDate(s: string): Option<Date>
  {
    if |s| == 8 && AllDigits(s) then
      Some(Date(Value(s[..4]), Value(s[4..6]), Value(s[6..])))
    else None
  }

  /** The date string names the timestamp's calendar day unambiguously:
      parsing it gives a valid date whose day number is the timestamp's. */
  lemma DateStringRoundTrip(t: int)
    requires DateString(t).Some?
    ensures |DateString(t).value| == 8
    ensures ParseDate(DateString(t).value).Some?
    ensures ValidDate(ParseDate(DateString(t).value).value)
    ensures DaysFromCivil(ParseDate(DateString(t).value).value) == DayOf(t)
  {
    var d := CivilFromDays(DayOf(t));
    assert Pow10(2) == 100 && Pow10(4) == 10000;
    PaddedRoundTrip(d.year, 4);
    PaddedRoundTrip(d.month, 2);
    PaddedRoundTrip(d.day, 2);
    var a, b, c := Padded(d.year, 4), Padded(d.month, 2), Padded(d.day, 2);
    var s := a + b + c;
    assert s[..4] == a && s[4..6] == b && s[6..] == c;
    assert AllDigits(s);
  }

  /** Two timestamps with the same date string lie on the same day. */
  lemma DateStringInjective(t1: int, t2: int)
    requires DateString(t1).Some? && DateString(t1) == DateString(t2)
    ensures DayOf(t1) == DayOf(t2)
  {
    DateStringRoundTrip(t1);
    DateStringRoundTrip(t2);
  }
}

=== FILE: episode.dfy ===
/** The `Episode` class: setup (path store, data store, alignment, monitor,
    tolerance gate) and iteration over the aligned timeline. */
module Episodes {
  import opened Wrappers
  import opened Seqs
  import opened Clock
  import opened Timeline
  import opened Frames
  import opened Align
  import opened Sources
  import opened Messages

  /** The setup tolerance: 300 seconds. */
  const ToleranceNs: int := 300 * SecondNs

  /** A built episode. `sources` is the windowed data store before
      alignment, `store` the aligned tables, `monitor` the change matrix;
      iteration is allowed only once `available` is set. */
  datatype Episode = Episode(
    ids: seq<string>,
    bufferStart: int,
    start: int,
    end: int,
    sources: seq<Source>,
    store: seq<Aligned>,
    monitor: Monitor,
    available: bool)

  /** The tolerance gate: the aligned timeline spans strictly less than 300 s. */
  predicate WithinTolerance(index: seq<int>)
    requires |index| > 0
  {
    index[|index| - 1] - index[0] < ToleranceNs
  }

  /** The derived data of an episode is what setup computes from its sources. */
  predicate Valid(ep: Episode)
  {
    && |ep.sources| > 0
    && StoreWellFormed(ep.sources)
    && DistinctIds(ep.sources)
    && ep.store == AlignStore(ep.sources)
    && ep.monitor == BuildMonitor(ep.store)
  }

  lemma ValidShape(ep: Episode)
    requires Valid(ep)
    ensures SameIndex(ep.store) && |ep.store| == |ep.sources|
    ensures ep.monitor.index == GlobalTimeline(ep.sources) && Increasing(ep.monitor.index)
    ensures |ep.monitor.changed| == |ep.monitor.index|
    ensures forall k :: 0 <= k < |ep.store| ==> ep.store[k].table.index == ep.monitor.index
    ensures forall k :: 0 <= k < |ep.store| ==> ep.store[k].id == ep.sources[k].id
  {
  }

  /** The first part of `_episode_setup`: the path store, then the data
      store, which must not be empty. */
  function Prepare(ids: seq<string>, bufferStart: int, end: int, files: seq<SourceFile>): (r: Result<seq<Source>, SetupError>)
    ensures DayOf(bufferStart) != DayOf(end) ==> r == Err(DateMismatch)
    ensures r.Ok? ==> DayOf(bufferStart) == DayOf(end)
    ensures r.Ok? ==> |r.value| == |Distinct(ids)| > 0
    ensures r.Ok? ==> forall k :: 0 <= k < |r.value| ==> r.value[k].id == Distinct(ids)[k] && r.value[k].id in ids
    ensures r.Ok? ==> StoreWellFormed(r.value) && DistinctIds(r.value) && InWindow(r.value, bufferStart, end)
    ensures r == Err(NoSources) ==> |ids| == 0
    ensures r.Err? && (r.error.BadIdentifier? || r.error.PathNotFound? || r.error.NoData? || r.error.RepeatedTimestamp?) ==> r.error.id in ids
  {
    match BuildPathStore(ids, bufferStart, end, files)
    case Err(e) => Err(e)
    case Ok(paths) => Gather(ids, paths, bufferStart, end)
  }

  /** The data store over resolved paths, which must not be empty. */
  function Gather(ids: seq<string>, paths: map<string, SourceFile>, lo: int, hi: int): (r: Result<seq<Source>, SetupError>)
    requires forall id :: id in ids ==> id in paths
    ensures r.Ok? ==> |r.value| == |Distinct(ids)| > 0
    ensures r.Ok? ==> forall k :: 0 <= k < |r.value| ==> r.value[k].id == Distinct(ids)[k] && r.value[k].id in ids
    ensures r.Ok? ==> StoreWellFormed(r.value) && DistinctIds(r.value) && InWindow(r.value, lo, hi)
    ensures r == Err(NoSources) ==> |ids| == 0
    ensures r.Err? ==> r.error.NoSources? || ((r.error.NoData? || r.error.RepeatedTimestamp?) && r.error.id in ids)
  {
    match BuildDataStore(ids, paths, lo, hi)
    case Err(e) => Err(e)
    case Ok(sources) => if |sources| == 0 then Err(NoSources) else Ok(sources)
  }

  /** `Episode.__init__` with `_episode_setup(tolerance=300)`: after the
      stores are built, the aligned timeline must be non-empty and span
      strictly less than the tolerance. */
  function Setup(ids: seq<string>, bufferStart: int, start: int, end: int, files: seq<SourceFile>): (r: Result<Episode, SetupError>)
    ensures Prepare(ids, bufferStart, end, files).Err? ==> r == Err(Prepare(ids, bufferStart, end, files).error)
    ensures Prepare(ids, bufferStart, end, files).Ok? ==>
      var timeline := GlobalTimeline(Prepare(ids, bufferStart, end, files).value);
      (r.Ok? <==> (|timeline| > 0 && WithinTolerance(timeline)))
    ensures r.Ok? ==> Valid(r.value) && r.value.available
    ensures r.Ok? ==> InWindow(r.value.sources, bufferStart, end)
    ensures r.Ok? ==> forall k :: 0 <= k < |r.value.sources| ==> r.value.sources[k].id in ids
    ensures r.Ok? ==> r.value.sources == Prepare(ids, bufferStart, end, files).value
    ensures r.Ok? ==> |r.value.monitor.index| > 0 && WithinTolerance(r.value.monitor.index)
    ensures r.Ok? ==> (r.value.ids == ids && r.value.bufferStart == bufferStart &&
      r.value.start == start && r.value.end == end)
  {
    var sources :- Prepare(ids, bufferStart, end, files);
    var store := AlignStore(sources);
    var monitor := BuildMonitor(store);
    if |monitor.index| == 0 then Err(EmptyTimeline)
    else if !WithinTolerance(monitor.index) then Err(ToleranceExceeded)
    else Ok(Episode(ids, bufferStart, start, end, sources, store, monitor, true))
  }

  // ---- progress messages ----

  /** The keyword names that occur in the two messages. */
  datatype Keyword =
    | TimestampStart | TimestampBuffer | TimestampEnd
    | EpisodeStart | EpisodeStartBuffer | EpisodeEnd
    | StepNo | Progress | Eta | Timestamp

  /** The message `__init__` logs before building the stores. */
  const PreparingMessage: seq<Piece<Keyword>> := [
    Lit("(INFO) episode from "), Field(TimestampStart), Lit(" ("), Field(TimestampBuffer),
    Lit(") to "), Field(TimestampEnd), Lit(" is being prepared ...")]

  /** FINDING: the keywords passed to the preparing message are named after
      the attributes (`episode_start`, ...), not after its placeholders, so
      rendering it raises `KeyError('timestamp_start')` whatever the
      timestamps, before any data is touched. */
  lemma PreparingMessageRaises(start: string, buffer: string, end: string)
    ensures Format(PreparingMessage,
      map[EpisodeStart := start, EpisodeStartBuffer := buffer, EpisodeEnd := end])
      == Err(TimestampStart)
  {
  }

  /** Keywords named after the placeholders render the message, which is
      what `Setup` assumes when it goes on to build the stores. */
  lemma PreparingMessageRenders(start: string, buffer: string, end: string)
    ensures Format(PreparingMessage,
      map[TimestampStart := start, TimestampBuffer := buffer, TimestampEnd := end]).Ok?
  {
  }

  /** The message `__iter__` logs at every step. */
  const StepMessage: seq<Piece<Keyword>> := [
    Lit("(INFO) step "), Field(StepNo), Lit(", progress "), Field(Progress),
    Lit(", eta "), Field(Eta), Lit(", time "), Field(Timestamp)]

  /** FINDING: the step message has a `timestamp` placeholder but no such
      keyword is passed, so rendering it raises `KeyError('timestamp')` at
      the first step. */
  lemma StepMessageRaises(step: string, progress: string, eta: string)
    ensures Format(StepMessage, map[StepNo := step, Progress := progress, Eta := eta])
      == Err(Timestamp)
  {
    var m := map[StepNo := step, Progress := progress, Eta := eta];
    var k := |StepMessage| - 1;
    while k > 0
      invariant 0 <= k < |StepMessage|
      invariant Format(StepMessage[k..], m) == Err(Timestamp)
    {
      FormatCons(StepMessage[k - 1], StepMessage[k..], m);
      assert StepMessage[k - 1..] == [StepMessage[k - 1]] + StepMessage[k..];
      k := k - 1;
    }
    assert StepMessage[0..] == StepMessage;
  }

  /** Passing the step's timestamp as well renders the message, which is
      what `Iterate` assumes when it yields every step. */
  lemma StepMessageRenders(step: string, progress: string, eta: string, time: string)
    ensures Format(StepMessage, map[StepNo := step, Progress := progress, Eta := eta, Timestamp := time]).Ok?
  {
  }

  // ---- iteration ----

  /** One yielded step: this and the next timestamp, the buffering flag, and
      the update (identifier, row) for every source that changed. */
  datatype Step = Step(time: int, next: int, buffering: bool, update: seq<(string, Row)>)

  /** The step whose timestamp is reported as the next one: the following
      step, clamped at the last one. */
  function NextIndex(step: nat, n: nat): (r: nat)
    requires step < n
    ensures r < n
    ensures step + 1 < n ==> r == step + 1
    ensures step + 1 == n ==> r == step
  {
    if step + 1 < n then step + 1 else n - 1
  }

  /** The clamp as written, `min(step + 1, n)` with `n` the number of rows. */
  function NextIndexAsWritten(step: nat, n: nat): nat
  {
    if step + 1 < n then step + 1 else n
  }

  /** FINDING: the written clamp agrees with the corrected one except at the
      last step, where it gives `n`, one past the last row, so the lookup
      of the next timestamp raises instead of being clamped. */
  lemma NextIndexAsWrittenOverruns(step: nat, n: nat)
    requires step < n
    ensures step + 1 < n ==> NextIndexAsWritten(step, n) == NextIndex(step, n)
    ensures step + 1 == n ==> NextIndexAsWritten(step, n) == n && NextIndex(step, n) == n - 1
  {
  }

  /** A monitor laid over aligned tables: one flag per table at every
      index entry, all tables on the monitor's index. */
  predicate Lined(store: seq<Aligned>, monitor: Monitor)
  {
    && SameIndex(store)
    && monitor.index == store[0].table.index
    && |monitor.changed| == |monitor.index|
    && forall i :: 0 <= i < |monitor.changed| ==> |monitor.changed[i]| == |store|
  }

  /** The identifiers marked in the monitor at step `i`, from source `k` on,
      each with its aligned row. */
  function UpdateFrom(store: seq<Aligned>, monitor: Monitor, i: nat, k: nat): seq<(string, Row)>
    requires Lined(store, monitor) && i < |monitor.index|
    decreases |store| - k
  {
    if k >= |store| then []
    else
      (if monitor.changed[i][k]
       then [(store[k].id, Row(monitor.index[i], RowCells(store[k].table, i)))]
       else [])
      + UpdateFrom(store, monitor, i, k + 1)
  }

  function StepAt(ep: Episode, i: nat): Step
    requires Valid(ep) && i < |ep.monitor.index|
  {
    var index := ep.monitor.index;
    ValidShape(ep);
    Step(index[i], index[NextIndex(i, |index|)], index[i] < ep.start, UpdateFrom(ep.store, ep.monitor, i, 0))
  }

  /** `Episode.__iter__`: nothing at all unless the episode is available,
      otherwise one step per aligned timestamp. */
  function Iterate(ep: Episode): (steps: seq<Step>)
    requires Valid(ep)
    ensures !ep.available ==> steps == []
    ensures ep.available ==> |steps| == |ep.monitor.index|
  {
    if !ep.available then []
    else seq(|ep.monitor.index|, i requires 0 <= i < |ep.monitor.index| => StepAt(ep, i))
  }

  // ---- properties ----

  /** The timeline a built episode iterates over is the sorted,
      duplicate-free union of the timestamps of all in-window records of
      all its sources, the window [bufferStart, end] inclusive at both ends,
      and every source's aligned table is indexed by it. */
  lemma TimelineIsWindowedUnion(ep: Episode)
    requires Valid(ep) && InWindow(ep.sources, ep.bufferStart, ep.end)
    ensures Increasing(ep.monitor.index)
    ensures forall t :: t in ep.monitor.index <==>
      exists k :: 0 <= k < |ep.sources| && t in Times(ep.sources[k].frame.rows)
    ensures forall t :: t in ep.monitor.index ==> ep.bufferStart <= t <= ep.end
    ensures forall k :: 0 <= k < |ep.store| ==> ep.store[k].table.index == ep.monitor.index
  {
    ValidShape(ep);
    forall t | t in ep.monitor.index ensures ep.bufferStart <= t <= ep.end {
      var k :| 0 <= k < |ep.sources| && t in Times(ep.sources[k].frame.rows);
      TimesMembership(ep.sources[k].frame.rows, t);
    }
  }

  /** Iterating an episode that is not available yields no steps. */
  lemma UnavailableYieldsNothing(ep: Episode)
    requires Valid(ep) && !ep.available
    ensures Iterate(ep) == []
  {
  }

  /** Steps come in timestamp order; `buffering` is exactly "before the
      trading start", so once it is false it stays false. */
  lemma BufferingMonotone(ep: Episode, i: int, j: int)
    requires Valid(ep) && ep.available
    requires 0 <= i < j < |Iterate(ep)|
    ensures Iterate(ep)[i].time < Iterate(ep)[j].time
    ensures Iterate(ep)[i].buffering <==> Iterate(ep)[i].time < ep.start
    ensures !Iterate(ep)[i].buffering ==> !Iterate(ep)[j].buffering
  {
    ValidShape(ep);
  }

  /** `timestamp_next` is the next step's timestamp, and the last step's own
      timestamp at the end. */
  lemma NextTimestamp(ep: Episode, i: int)
    requires Valid(ep) && ep.available
    requires 0 <= i < |Iterate(ep)|
    ensures i + 1 < |Iterate(ep)| ==> Iterate(ep)[i].next == Iterate(ep)[i + 1].time
    ensures i + 1 == |Iterate(ep)| ==> Iterate(ep)[i].next == Iterate(ep)[i].time
    ensures Iterate(ep)[i].time <= Iterate(ep)[i].next
  {
    ValidShape(ep);
  }

  lemma {:induction false} UpdateFromMembers(store: seq<Aligned>, monitor: Monitor, i: nat, k: nat, id: string, row: Row)
    requires Lined(store, monitor) && i < |monitor.index|
    ensures (id, row) in UpdateFrom(store, monitor, i, k) <==>
      exists m :: k <= m < |store| && monitor.changed[i][m] && id == store[m].id &&
        row == Row(monitor.index[i], RowCells(store[m].table, i))
    decreases |store| - k
  {
    if k < |store| {
      UpdateFromMembers(store, monitor, i, k + 1, id, row);
    }
  }

  /** The update of step `i` holds exactly the identifiers the monitor marks
      at `i`, paired with their aligned rows at `i`. */
  lemma UpdateIsMarkedRows(ep: Episode, i: int, id: string, row: Row)
    requires Valid(ep) && ep.available && 0 <= i < |Iterate(ep)|
    ensures SameIndex(ep.store)
    ensures (id, row) in Iterate(ep)[i].update <==>
      exists k :: 0 <= k < |ep.store| && ep.monitor.changed[i][k] && id == ep.store[k].id &&
        row == Row(Iterate(ep)[i].time, RowCells(ep.store[k].table, i))
  {
    ValidShape(ep);
    UpdateFromMembers(ep.store, ep.monitor, i, 0, id, row);
  }

  /** With distinct identifiers, the entries of step `i`'s update that name
      source `k` are exactly its aligned row, present iff the monitor marks it. */
  lemma UpdateOfSource(ep: Episode, i: int, k: int, row: Row)
    requires Valid(ep) && ep.available && 0 <= i < |Iterate(ep)| && 0 <= k < |ep.store|
    ensures SameIndex(ep.store)
    ensures (ep.store[k].id, row) in Iterate(ep)[i].update <==>
      ep.monitor.changed[i][k] && row == Row(Iterate(ep)[i].time, RowCells(ep.store[k].table, i))
  {
    ValidShape(ep);
    UpdateIsMarkedRows(ep, i, ep.store[k].id, row);
  }

  /** A SOURCE'S UPDATES ARE ITS RECORDS: for a source whose columns come back
      intact, step `i` reports it exactly when it has its own record with a
      value at that timestamp, and then reports exactly that record. */
  lemma UpdateCarriesRecords(ep: Episode, i: int, k: int, row: Row)
    requires Valid(ep) && ep.available && 0 <= i < |Iterate(ep)|
    requires Separable(ep.sources, k)
    ensures (ep.sources[k].id, row) in Iterate(ep)[i].update <==>
      (row in ep.sources[k].frame.rows && row.time == Iterate(ep)[i].time && HasValue(row.cells))
  {
    ValidShape(ep);
    var f := ep.sources[k].frame;
    var t := Iterate(ep)[i].time;
    UpdateOfSource(ep, i, k, row);
    MonitorMarksRecords(ep.sources, k, i);
    AlignedTableOfSource(ep.sources, k);
    match RowAt(f.rows, t)
    case None =>
    case Some(x) =>
      RecordIsReindexed(f, x);
      if row in f.rows && row.time == t {
        RecordIsReindexed(f, row);
      }
  }

  /** A record of a well-formed frame is what reindexing finds at its time. */
  lemma RecordIsReindexed(f: Frame, x: Row)
    requires WellFormed(f) && x in f.rows
    ensures RowAt(f.rows, x.time) == Some(x)
    ensures Reindexed(f, x.time) == x.cells
  {
    match RowAt(f.rows, x.time)
    case Some(y) =>
      var a :| 0 <= a < |f.rows| && f.rows[a] == x;
      var b :| 0 <= b < |f.rows| && f.rows[b] == y;
      assert !(a < b) && !(b < a);
    case None =>
  }
}

=== FILE: frames.dfy ===
/** A loaded data source: the rows of one CSV or JSON file, each with its
    timestamp (the `TIMESTAMP_UTC` column) and the remaining cells, any of
    which may be NaN. Cell values are opaque integers: the replay never
    computes with them, it only moves them around. */
module Frames {
  import opened Wrappers
  import opened Timeline

  /** A cell; `None` is pandas' NaN. */
  type Cell = Option<int>

  datatype Row = Row(time: int, cells: seq<Cell>)

  /** `columns` are the non-timestamp column names, in file order. */
  datatype Frame = Frame(columns: seq<string>, rows: seq<Row>)

  predicate Chronological(rows: seq<Row>)
  {
    forall i, j :: 0 <= i < j < |rows| ==> rows[i].time < rows[j].time
  }

  predicate Rectangular(f: Frame)
  {
    forall i :: 0 <= i < |f.rows| ==> |f.rows[i].cells| == |f.columns|
  }

  /** A parsed file: pandas gives every row one cell per column. */
  type Parsed = f: Frame | Rectangular(f) witness Frame([], [])

  /** No timestamp occurs twice; the rows may come in any order. */
  predicate UniqueTimes(rows: seq<Row>)
  {
    forall i, j :: 0 <= i < j < |rows| ==> rows[i].time != rows[j].time
  }

  /** A frame as the alignment sees it: one cell per column in every row,
      and strictly increasing timestamps, the order of the sorted union
      index that the outer `concat` builds when it aligns differing indexes
      (a frame it need not align is taken to be sorted already). */
  predicate WellFormed(f: Frame)
  {
    Rectangular(f) && Chronological(f.rows)
  }

  /** At least one non-timestamp cell is not NaN. */
  predicate HasValue(cells: seq<Cell>)
  {
    exists c :: 0 <= c < |cells| && cells[c].Some?
  }

  function Times(rows: seq<Row>): (r: seq<int>)
    ensures |r| == |rows|
    ensures forall i :: 0 <= i < |rows| ==> r[i] == rows[i].time
    ensures Chronological(rows) ==> Increasing(r)
  {
    seq(|rows|, i requires 0 <= i < |rows| => rows[i].time)
  }

  lemma TimesMembership(rows: seq<Row>, t: int)
    ensures t in Times(rows) <==> exists x :: x in rows && x.time == t
  {
    if t in Times(rows) {
      var i :| 0 <= i < |rows| && Times(rows)[i] == t;
      assert rows[i] in rows;
    }
  }

  lemma LaterRows(rows: seq<Row>, x: Row)
    requires Chronological(rows) && |rows| > 0 && x in rows[1..]
    ensures rows[0].time < x.time
  {
    var k :| 0 <= k < |rows[1..]| && rows[1..][k] == x;
    assert rows[k + 1] == x;
  }

  lemma PrependRow(x: Row, rows: seq<Row>)
    requires Chronological(rows) && forall y :: y in rows ==> x.time < y.time
    ensures Chronological([x] + rows)
  {
    forall i, j | 0 <= i < j < |[x] + rows| ensures ([x] + rows)[i].time < ([x] + rows)[j].time {
      assert ([x] + rows)[j] == rows[j - 1] && rows[j - 1] in rows;
    }
  }

  /** `df[df[DATETIME].between(lo, hi)]`: the rows with lo <= time <= hi,
      both ends inclusive, in their original order. */
  function Between(rows: seq<Row>, lo: int, hi: int): (r: seq<Row>)
    ensures forall x :: x in r <==> x in rows && lo <= x.time <= hi
    ensures |r| <= |rows|
  {
    if |rows| == 0 then []
    else
      assert rows == [rows[0]] + rows[1..];
      var rest := Between(rows[1..], lo, hi);
      if lo <= rows[0].time <= hi then [rows[0]] + rest else rest
  }

  lemma {:induction false} BetweenChronological(rows: seq<Row>, lo: int, hi: int)
    requires Chronological(rows)
    ensures Chronological(Between(rows, lo, hi))
  {
    if |rows| > 0 {
      assert rows == [rows[0]] + rows[1..];
      BetweenChronological(rows[1..], lo, hi);
      var rest := Between(rows[1..], lo, hi);
      forall y | y in rest ensures rows[0].time < y.time { LaterRows(rows, y); }
      PrependRow(rows[0], rest);
    }
  }

  /** `x` placed into chronological rows before the first later row. */
  function Insert(x: Row, rows: seq<Row>): (r: seq<Row>)
    requires Chronological(rows) && forall y :: y in rows ==> y.time != x.time
    ensures Chronological(r) && |r| == |rows| + 1
    ensures forall y :: y in r <==> y == x || y in rows
  {
    if |rows| == 0 then [x]
    else if x.time < rows[0].time then
      forall y | y in rows ensures x.time < y.time {
        if y != rows[0] {
          assert rows == [rows[0]] + rows[1..];
          LaterRows(rows, y);
        }
      }
      PrependRow(x, rows);
      [x] + rows
    else
      assert rows == [rows[0]] + rows[1..];
      var rest := Insert(x, rows[1..]);
      forall y | y in rest ensures rows[0].time < y.time {
        if y != x { LaterRows(rows, y); }
      }
      PrependRow(rows[0], rest);
      [rows[0]] + rest
  }

  /** The rows ordered by timestamp. */
  function Sort(rows: seq<Row>): (r: seq<Row>)
    requires UniqueTimes(rows)
    ensures Chronological(r) && |r| == |rows|
    ensures forall y :: y in r <==> y in rows
  {
    if |rows| == 0 then []
    else
      assert rows == [rows[0]] + rows[1..];
      var rest := Sort(rows[1..]);
      forall y | y in rest ensures y.time != rows[0].time {
        var j :| 0 <= j < |rows[1..]| && rows[1..][j] == y;
        assert rows[j + 1] == y;
      }
      Insert(rows[0], rest)
  }

  /** Restriction of a parsed frame to a time window, in timestamp order.
      The window must not repeat a timestamp. */
  function Window(f: Frame, lo: int, hi: int): (r: Frame)
    requires Rectangular(f) && UniqueTimes(Between(f.rows, lo, hi))
    ensures WellFormed(r) && r.columns == f.columns
    ensures forall x :: x in r.rows <==> x in f.rows && lo <= x.time <= hi
  {
    var rows := Sort(Between(f.rows, lo, hi));
    forall i | 0 <= i < |rows| ensures |rows[i].cells| == |f.columns| {
      assert rows[i] in rows;
    }
    Frame(f.columns, rows)
  }

  /** The row with timestamp `t`, if the source has one. */
  function RowAt(rows: seq<Row>, t: int): (r: Option<Row>)
    ensures r.Some? ==> r.value in rows && r.value.time == t
    ensures r.None? ==> forall x :: x in rows ==> x.time != t
  {
    if |rows| == 0 then None
    else if rows[0].time == t then Some(rows[0])
    else
      assert rows == [rows[0]] + rows[1..];
      RowAt(rows[1..], t)
  }
}

=== FILE: messages.dfy ===
/** Python's `str.format` with keyword arguments, as the progress messages
    of the replay use it. A message only matters here when rendering it
    raises; the rendered text is never read back. */
module Messages {
  import opened Wrappers

  /** A piece of a format template: literal text or a `{name}` placeholder.
      Names are drawn from `K`, the keyword names of the call site. */
  datatype Piece<K> = Lit(text: string) | Field(name: K)

  /** Every placeholder of the template has a keyword argument. */
  predicate Supplied<K>(template: seq<Piece<K>>, args: map<K, string>)
  {
    forall k :: 0 <= k < |template| && template[k].Field? ==> template[k].name in args
  }

  /** `template.format(**args)`: every placeholder is replaced by the text of
      its keyword argument; a placeholder without one raises `KeyError`
      with the placeholder's name. */
  function Format<K(==)>(template: seq<Piece<K>>, args: map<K, string>): (r: Result<string, K>)
    ensures r.Ok? <==> Supplied(template, args)
    ensures r.Err? ==> Field(r.error) in template && r.error !in args
  {
    if |template| == 0 then Ok("")
    else
      assert forall k :: 1 <= k < |template| ==> template[k] == template[1..][k - 1];
      match template[0]
      case Lit(text) =>
        var rest :- Format(template[1..], args);
        Ok(text + rest)
      case Field(name) =>
        if name !in args then Err(name)
        else
          var rest :- Format(template[1..], args);
          Ok(args[name] + rest)
  }

  /** Rendering a template renders its first piece, then the rest. */
  lemma FormatCons<K>(p: Piece<K>, rest: seq<Piece<K>>, args: map<K, string>)
    ensures Format([p] + rest, args) ==
      if p.Field? && p.name !in args then Err(p.name)
      else if Format(rest, args).Err? then Format(rest, args)
      else Ok((if p.Lit? then p.text else args[p.name]) + Format(rest, args).value)
  {
    assert ([p] + rest)[1..] == rest;
  }
}

=== FILE: schedule.dfy ===
/** `Backtest.run_generator`: filter a grid of candidate episode starts to
    business days (and, on an intraday grid, trading hours), derive each
    episode's window from the buffer and length in minutes, and run
    episodes from the grid until enough of them have completed. The grid
    itself is an input; shuffling is not modelled. */
module Schedule {
  import opened Wrappers
  import opened Clock
  import opened Timeline
  import opened Sources
  import opened Backtest

  /** 08:00 and 16:30, the trading day an intraday episode must fit in. */
  function DayOpen(): int { ClockTime(8, 0, 0) }
  function DayClose(): int { ClockTime(16, 30, 0) }

  predicate BusinessDay(t: int)
  {
    Weekday(t) != 5 && Weekday(t) != 6
  }

  // ---- the grid filter ----

  /** The filter as written: on an intraday grid the end test compares only
      the time of day of `start + length`, which wraps past midnight. */
  predicate KeepStartAsWritten(t: int, intraday: bool, lengthMin: nat)
  {
    && BusinessDay(t)
    && (intraday ==>
          && DayOpen() <= TimeOfDayMicros(t)
          && TimeOfDayMicros(t + lengthMin * MinuteNs) <= DayClose())
  }

  /** The filter as intended: on an intraday grid the whole episode lies
      between 08:00 and 16:30 of the start's own day. */
  predicate KeepStart(t: int, intraday: bool, lengthMin: nat)
  {
    && KeepStartAsWritten(t, intraday, lengthMin)
    && (intraday ==> DayOf(t + lengthMin * MinuteNs) == DayOf(t))
  }

  /** A Monday, 23:50 (1970-01-05 was a Monday). */
  const LateMonday: int := 4 * DayNs + 23 * 60 * MinuteNs + 50 * MinuteNs

  /** FINDING: the written filter keeps a start at 23:50 for a 30-minute
      episode, which ends at 00:20 on the next day. */
  lemma AsWrittenKeepsMidnightEpisode()
    ensures KeepStartAsWritten(LateMonday, true, 30)
    ensures DayOf(LateMonday + 30 * MinuteNs) != DayOf(LateMonday)
    ensures !KeepStart(LateMonday, true, 30)
  {
    assert DayOf(LateMonday) == 4;
    assert LateMonday % DayNs == 23 * 60 * MinuteNs + 50 * MinuteNs;
    assert DayOf(LateMonday + 30 * MinuteNs) == 5;
    assert (LateMonday + 30 * MinuteNs) % DayNs == 20 * MinuteNs;
  }

  /** The intended filter keeps an intraday start exactly when the episode
      starts on a business day at or after 08:00 and ends on the same day
      at or before 16:30. */
  lemma KeptEpisodeFitsTradingDay(t: int, lengthMin: nat)
    ensures KeepStart(t, true, lengthMin) <==> (
      && BusinessDay(t)
      && DayOf(t + lengthMin * MinuteNs) == DayOf(t)
      && DayOf(t) * DayNs + DayOpen() * 1000 <= t
      && t + lengthMin * MinuteNs < DayOf(t) * DayNs + DayClose() * 1000 + 1000)
  {
    var e := t + lengthMin * MinuteNs;
    assert t == DayOf(t) * DayNs + t % DayNs;
    assert e == DayOf(e) * DayNs + e % DayNs;
  }

  /** The list comprehension over the grid: the starts that pass, in grid
      order. */
  function FilterGrid(grid: seq<int>, intraday: bool, lengthMin: nat): (r: seq<int>)
    ensures forall t :: t in r <==> t in grid && KeepStart(t, intraday, lengthMin)
    ensures |r| <= |grid|
  {
    if |grid| == 0 then []
    else
      assert grid == [grid[0]] + grid[1..];
      (if KeepStart(grid[0], intraday, lengthMin) then [grid[0]] else [])
      + FilterGrid(grid[1..], intraday, lengthMin)
  }

  /** Filtering keeps the grid's chronological order. */
  lemma {:induction false} FilterGridIncreasing(grid: seq<int>, intraday: bool, lengthMin: nat)
    requires Increasing(grid)
    ensures Increasing(FilterGrid(grid, intraday, lengthMin))
  {
    if |grid| > 0 {
      var rest := FilterGrid(grid[1..], intraday, lengthMin);
      TailIncreasing(grid);
      FilterGridIncreasing(grid[1..], intraday, lengthMin);
      if KeepStart(grid[0], intraday, lengthMin) {
        forall y | y in rest ensures grid[0] < y {
          var k :| 0 <= k < |grid[1..]| && grid[1..][k] == y;
          assert grid[k + 1] == y;
        }
        Prepend(grid[0], rest);
      }
    }
  }

  /** `freq=f"{episode_interval}m"` asks pandas for month ends, and
      `normalize=True` puts every point of such a grid at midnight. No
      midnight passes the 08:00 test, so the intraday filter keeps nothing
      of that grid. */
  lemma {:induction false} MidnightGridKeepsNothing(grid: seq<int>, lengthMin: nat)
    requires forall k :: 0 <= k < |grid| ==> grid[k] % DayNs == 0
    ensures FilterGrid(grid, true, lengthMin) == []
  {
    if |grid| > 0 {
      assert TimeOfDayMicros(grid[0]) == 0 < DayOpen();
      MidnightGridKeepsNothing(grid[1..], lengthMin);
    }
  }

  lemma TailIncreasing(s: seq<int>)
    requires Increasing(s) && |s| > 0
    ensures Increasing(s[1..])
  {
  }

  // ---- episode windows ----

  /** An episode starting its buffer at `bufferStart`: trading starts after
      `bufferMin` minutes and the episode ends `lengthMin` minutes after the
      buffer start (the length includes the buffer). */
  datatype Window = Window(bufferStart: int, start: int, end: int)

  function EpisodeWindow(bufferStart: int, bufferMin: nat, lengthMin: nat): (w: Window)
    ensures w.bufferStart == bufferStart
    ensures w.start - w.bufferStart == bufferMin * MinuteNs
    ensures w.end - w.bufferStart == lengthMin * MinuteNs
    ensures bufferMin <= lengthMin ==> w.bufferStart <= w.start <= w.end
  {
    Window(bufferStart, bufferStart + bufferMin * MinuteNs, bufferStart + lengthMin * MinuteNs)
  }

  /** Whether `run` completes for the episode starting at grid point `t`. */
  predicate Completes(ids: seq<string>, files: seq<SourceFile>, bufferMin: nat, lengthMin: nat, t: int)
  {
    var w := EpisodeWindow(t, bufferMin, lengthMin);
    Run(ids, w.bufferStart, w.start, w.end, files).failure.None?
  }

  /** A start kept by the intended filter gives an episode whose buffer
      start and end fall on one date, so setup never fails on the date
      check. */
  lemma KeptWindowOnOneDate(t: int, bufferMin: nat, lengthMin: nat)
    requires KeepStart(t, true, lengthMin)
    ensures var w := EpisodeWindow(t, bufferMin, lengthMin); DayOf(w.bufferStart) == DayOf(w.end)
  {
  }

  // ---- the episode loop ----

  /** The completion of each grid point's episode, in grid order. */
  function Outcomes(ids: seq<string>, files: seq<SourceFile>, bufferMin: nat, lengthMin: nat, starts: seq<int>): (r: seq<bool>)
    ensures |r| == |starts|
    ensures forall i :: 0 <= i < |starts| ==> r[i] == Completes(ids, files, bufferMin, lengthMin, starts[i])
  {
    seq(|starts|, i requires 0 <= i < |starts| => Completes(ids, files, bufferMin, lengthMin, starts[i]))
  }

  /** The elements of `xs` whose flag is set, in order. */
  function Picked(xs: seq<int>, ok: seq<bool>): (r: seq<int>)
    requires |xs| == |ok|
    ensures |r| <= |xs|
  {
    if |xs| == 0 then []
    else (if ok[0] then [xs[0]] else []) + Picked(xs[1..], ok[1..])
  }

  /** An element is picked exactly when some position holding it has its
      flag set. */
  lemma {:induction false} PickedMembers(xs: seq<int>, ok: seq<bool>)
    requires |xs| == |ok|
    ensures forall t :: t in Picked(xs, ok) <==> exists i :: 0 <= i < |xs| && xs[i] == t && ok[i]
  {
    if |xs| > 0 {
      var rest := Picked(xs[1..], ok[1..]);
      PickedMembers(xs[1..], ok[1..]);
      forall t ensures t in Picked(xs, ok) <==> exists i :: 0 <= i < |xs| && xs[i] == t && ok[i] {
        if t in rest {
          var i :| 0 <= i < |xs[1..]| && xs[1..][i] == t && ok[1..][i];
          assert xs[i + 1] == t && ok[i + 1];
        }
        if exists i :: 0 <= i < |xs| && xs[i] == t && ok[i] {
          var i :| 0 <= i < |xs| && xs[i] == t && ok[i];
          if i > 0 {
            assert xs[1..][i - 1] == t && ok[1..][i - 1];
          }
        }
      }
    }
  }

  lemma {:induction false} PickedConcat(a: seq<int>, oa: seq<bool>, b: seq<int>, ob: seq<bool>)
    requires |a| == |oa| && |b| == |ob|
    ensures Picked(a + b, oa + ob) == Picked(a, oa) + Picked(b, ob)
  {
    if |a| == 0 {
      assert a + b == b && oa + ob == ob;
    } else {
      var head := if oa[0] then [a[0]] else [];
      assert (a + b)[1..] == a[1..] + b && (oa + ob)[1..] == oa[1..] + ob;
      PickedConcat(a[1..], oa[1..], b, ob);
      calc {
        Picked(a + b, oa + ob);
        head + Picked(a[1..] + b, oa[1..] + ob);
        head + (Picked(a[1..], oa[1..]) + Picked(b, ob));
        (head + Picked(a[1..], oa[1..])) + Picked(b, ob);
        Picked(a, oa) + Picked(b, ob);
      }
    }
  }

  /** The grid points whose episode completes, in grid order. */
  function Completed(ids: seq<string>, files: seq<SourceFile>, bufferMin: nat, lengthMin: nat, starts: seq<int>): seq<int>
  {
    Picked(starts, Outcomes(ids, files, bufferMin, lengthMin, starts))
  }

  /** Every point counted as completed is a start whose run completes. */
  lemma CompletedMember(ids: seq<string>, files: seq<SourceFile>, bufferMin: nat, lengthMin: nat, starts: seq<int>, t: int)
    requires t in Completed(ids, files, bufferMin, lengthMin, starts)
    ensures t in starts && Completes(ids, files, bufferMin, lengthMin, t)
  {
    var ok := Outcomes(ids, files, bufferMin, lengthMin, starts);
    PickedMembers(starts, ok);
    var i :| 0 <= i < |starts| && starts[i] == t && ok[i];
  }

  function Min(a: int, b: int): int
  {
    if a <= b then a else b
  }

  /** One `run` inside the loop's `try`: whether the episode completed. */
  method Attempt(ids: seq<string>, files: seq<SourceFile>, bufferMin: nat, lengthMin: nat, t: int) returns (completed: bool)
    ensures completed == Completes(ids, files, bufferMin, lengthMin, t)
  {
    var w := EpisodeWindow(t, bufferMin, lengthMin);
    var outcome := Run(ids, w.bufferStart, w.start, w.end, files);
    completed := outcome.failure.None?;
  }

  /** The body of the episode loop as intended: try the starts in order, one
      index step per attempt, until `target` episodes have completed or the
      starts are used up. The result is the first completed starts, as many
      as the target or as there are. */
  method CollectCompleted(ids: seq<string>, files: seq<SourceFile>, bufferMin: nat, lengthMin: nat,
                          starts: seq<int>, target: nat) returns (ran: seq<int>)
    ensures var done := Completed(ids, files, bufferMin, lengthMin, starts);
      |ran| == Min(target, |done|) && ran == done[..|ran|]
  {
    var ok := Outcomes(ids, files, bufferMin, lengthMin, starts);
    ran := [];
    var index := 0;
    while |ran| < target && index < |starts|
      invariant 0 <= index <= |starts|
      invariant ran == Picked(starts[..index], ok[..index])
      invariant |ran| <= target
      decreases |starts| - index
    {
      ran := AttemptNext(ids, files, bufferMin, lengthMin, starts, ok, index, ran);
      index := index + 1;
    }
    PickedPrefix(starts, ok, index, target);
    assert Completed(ids, files, bufferMin, lengthMin, starts) == Picked(starts, ok);
  }

  /** One pass of the loop: run the episode at `starts[index]` and count its
      start when it completes. */
  method AttemptNext(ids: seq<string>, files: seq<SourceFile>, bufferMin: nat, lengthMin: nat,
                     starts: seq<int>, ok: seq<bool>, index: nat, ran: seq<int>) returns (ran': seq<int>)
    requires ok == Outcomes(ids, files, bufferMin, lengthMin, starts)
    requires index < |starts| && ran == Picked(starts[..index], ok[..index])
    ensures ran' == Picked(starts[..index + 1], ok[..index + 1])
    ensures ran' == if Completes(ids, files, bufferMin, lengthMin, starts[index]) then ran + [starts[index]] else ran
  {
    var t := starts[index];
    var completed := Attempt(ids, files, bufferMin, lengthMin, t);
    PickedStep(starts, ok, index);
    ran' := if completed then ran + [t] else ran;
  }

  /** `run_generator` as intended: filter the grid, then run episodes from
      it until `min(len(grid), num_episodes)` have completed or the grid is
      used up. The result is exactly the first completed grid points, and
      every one of them is a kept grid point whose episode completes. */
  method RunGenerator(ids: seq<string>, files: seq<SourceFile>, grid: seq<int>, intraday: bool,
                      bufferMin: nat, lengthMin: nat, numEpisodes: nat) returns (ran: seq<int>)
    ensures var starts := FilterGrid(grid, intraday, lengthMin);
      var done := Completed(ids, files, bufferMin, lengthMin, starts);
      && |ran| == Min(Min(|starts|, numEpisodes), |done|)
      && ran == done[..|ran|]
    ensures forall t :: t in ran ==>
      (t in grid && KeepStart(t, intraday, lengthMin) && Completes(ids, files, bufferMin, lengthMin, t))
  {
    var starts := FilterGrid(grid, intraday, lengthMin);
    ran := CollectCompleted(ids, files, bufferMin, lengthMin, starts, Min(|starts|, numEpisodes));
    var done := Completed(ids, files, bufferMin, lengthMin, starts);
    forall t | t in ran ensures t in grid && KeepStart(t, intraday, lengthMin) && Completes(ids, files, bufferMin, lengthMin, t) {
      assert t in done;
      CompletedMember(ids, files, bufferMin, lengthMin, starts, t);
    }
  }

  /** One more element: picked or not according to its flag. */
  lemma PickedStep(xs: seq<int>, ok: seq<bool>, index: nat)
    requires |xs| == |ok| && index < |xs|
    ensures Picked(xs[..index + 1], ok[..index + 1])
      == Picked(xs[..index], ok[..index]) + (if ok[index] then [xs[index]] else [])
  {
    assert xs[..index + 1] == xs[..index] + [xs[index]];
    assert ok[..index + 1] == ok[..index] + [ok[index]];
    PickedConcat(xs[..index], ok[..index], [xs[index]], [ok[index]]);
    assert [xs[index]][1..] == [] && [ok[index]][1..] == [];
  }

  /** Where the loop stops, the picked elements so far are the first ones
      of all picked elements, as many as the target or as there are. */
  lemma PickedPrefix(xs: seq<int>, ok: seq<bool>, index: nat, target: nat)
    requires |xs| == |ok| && index <= |xs|
    requires |Picked(xs[..index], ok[..index])| <= target
    requires |Picked(xs[..index], ok[..index])| == target || index == |xs|
    ensures var ran := Picked(xs[..index], ok[..index]);
      |ran| == Min(target, |Picked(xs, ok)|) && ran == Picked(xs, ok)[..|ran|]
  {
    assert xs == xs[..index] + xs[index..];
    assert ok == ok[..index] + ok[index..];
    PickedConcat(xs[..index], ok[..index], xs[index..], ok[index..]);
  }

  // ---- the loop as written ----

  /** The loop variables `episode_counter` and `episode_index`. */
  datatype LoopState = LoopState(counter: nat, index: nat)

  /** One pass of the loop body as written, given which grid points
      complete: an index past the grid raises inside the `try` and is
      swallowed; a completed episode advances the index in the `try` and
      again in the `finally`. */
  function AsWrittenPass(completes: seq<bool>, s: LoopState): (r: LoopState)
    ensures r.index > s.index
  {
    if s.index >= |completes| then LoopState(s.counter, s.index + 1)
    else if completes[s.index] then LoopState(s.counter + 1, s.index + 2)
    else LoopState(s.counter, s.index + 1)
  }

  /** The loop as written, for at most `fuel` passes; `None` when it is
      still running. */
  function AsWrittenLoop(completes: seq<bool>, target: nat, s: LoopState, fuel: nat): (r: Option<LoopState>)
    decreases fuel
    ensures r.Some? ==> r.value.counter >= target
  {
    if s.counter >= target then Some(s)
    else if fuel == 0 then None
    else AsWrittenLoop(completes, target, AsWrittenPass(completes, s), fuel - 1)
  }

  /** Once the index is past the grid with too few episodes completed, the
      written loop never stops. */
  lemma {:induction false} AsWrittenSpinsPastGrid(completes: seq<bool>, target: nat, s: LoopState, fuel: nat)
    requires s.index >= |completes| && s.counter < target
    ensures AsWrittenLoop(completes, target, s, fuel) == None
    decreases fuel
  {
    if fuel > 0 {
      AsWrittenSpinsPastGrid(completes, target, AsWrittenPass(completes, s), fuel - 1);
    }
  }

  /** FINDING: with two grid points that both complete and two episodes
      asked for, the written loop runs the first, skips the second, and
      never stops. */
  lemma AsWrittenNeverStopsAfterSkip(fuel: nat)
    ensures AsWrittenPass([true, true], LoopState(0, 0)) == LoopState(1, 2)
    ensures AsWrittenLoop([true, true], 2, LoopState(0, 0), fuel) == None
  {
    if fuel > 0 {
      AsWrittenSpinsPastGrid([true, true], 2, LoopState(1, 2), fuel - 1);
    }
  }

  /** FINDING: with one grid point whose episode fails and one episode
      asked for, the written loop never stops. */
  lemma AsWrittenNeverStopsOnFailure(fuel: nat)
    ensures AsWrittenLoop([false], 1, LoopState(0, 0), fuel) == None
  {
    if fuel > 0 {
      AsWrittenSpinsPastGrid([false], 1, LoopState(0, 1), fuel - 1);
    }
  }
}

=== FILE: seqs.dfy ===
/** Sequence helpers shared by the replay and the driver. */
module Seqs {

  /** The position where `x` first occurs in `s`. */
  function FirstIndex<T(==)>(s: seq<T>, x: T): (r: nat)
    requires x in s
    ensures r < |s| && s[r] == x
    ensures forall k :: 0 <= k < r ==> s[k] != x
  {
    if s[0] == x then 0 else 1 + FirstIndex(s[1..], x)
  }

  /** Appending to `s` does not move the first occurrence of what `s` holds. */
  lemma FirstIndexAppend<T>(s: seq<T>, y: T, x: T)
    requires x in s
    ensures FirstIndex(s + [y], x) == FirstIndex(s, x)
  {
    assert (s + [y])[FirstIndex(s, x)] == x;
  }

  /** The elements of `s` in order of first occurrence, each once: the key
      order of a Python dict filled from `s`. */
  function Distinct<T(==, !new)>(s: seq<T>): (r: seq<T>)
    ensures forall x :: x in r <==> x in s
    ensures forall i, j :: 0 <= i < j < |r| ==> r[i] != r[j]
    ensures forall i, j :: 0 <= i < j < |r| ==> FirstIndex(s, r[i]) < FirstIndex(s, r[j])
    ensures |r| <= |s|
    ensures |s| > 0 ==> |r| > 0
  {
    if |s| == 0 then []
    else
      var init, last := s[..|s| - 1], s[|s| - 1];
      var d := Distinct(init);
      assert s == init + [last];
      forall x | x in init ensures FirstIndex(s, x) == FirstIndex(init, x) {
        FirstIndexAppend(init, last, x);
      }
      if last in d then d
      else
        assert FirstIndex(s, last) == |s| - 1;
        assert forall i :: 0 <= i < |d| ==> d[i] in init;
        d + [last]
  }
}

=== FILE: sources.dfy ===
/** `Episode._build_path_store` and `Episode._build_data_store`: resolving
    each identifier `<market_id>.<event_id>` to exactly one file of the
    episode's date, and loading it restricted to the episode window. The
    directory walk and the CSV/JSON parsing are not modelled: the caller
    passes the files found, each with the frame it loads to. */
module Sources {
  import opened Wrappers
  import opened Text
  import opened Seqs
  import opened Clock
  import opened Frames
  import opened Align

  /** A file found under the source directory and the frame it loads to. */
  datatype SourceFile = SourceFile(path: string, frame: Parsed)

  /** Why an episode cannot be built; each is an exception in the source. */
  datatype SetupError =
    | DateMismatch              // start and end are on different dates
    | DateOutOfRange            // no calendar date string for the start
    | BadIdentifier(id: string) // the identifier does not split into two parts at '.'
    | PathNotFound(id: string)  // zero or several files match the identifier
    | NoData(id: string)        // the file has no rows at all
    | RepeatedTimestamp(id: string) // the windowed rows repeat a timestamp, which the outer `concat` cannot reindex
    | NoSources                 // nothing to align: the identifier list is empty
    | EmptyTimeline             // no source has a row inside the window
    | ToleranceExceeded         // the aligned timeline spans too long

  /** The three path filters: market and event case-insensitively, the
      `YYYYMMDD` date string as is. */
  predicate IsCandidate(path: string, market: string, event: string, date: string)
  {
    && Contains(Lower(path), Lower(market))
    && Contains(Lower(path), Lower(event))
    && Contains(path, date)
  }

  function Candidates(files: seq<SourceFile>, market: string, event: string, date: string): (r: seq<SourceFile>)
    ensures forall f :: f in r <==> f in files && IsCandidate(f.path, market, event, date)
  {
    if |files| == 0 then []
    else
      assert files == [files[0]] + files[1..];
      (if IsCandidate(files[0].path, market, event, date) then [files[0]] else [])
      + Candidates(files[1..], market, event, date)
  }

  /** One identifier of the loop in `_build_path_store`. */
  function ResolvePath(files: seq<SourceFile>, id: string, date: string): Result<SourceFile, SetupError>
  {
    match SplitPair(id, '.')
    case None => Err(BadIdentifier(id))
    case Some((market, event)) =>
      var found := Candidates(files, market, event, date);
      if |found| != 1 then Err(PathNotFound(id)) else Ok(found[0])
  }

  /** An identifier resolves exactly when it has one '.' and exactly one
      file passes the filters for its two parts; otherwise the error names
      it, as a bad identifier when it does not split. */
  lemma ResolveCases(files: seq<SourceFile>, id: string, date: string)
    ensures ResolvePath(files, id, date).Ok? <==>
      (multiset(id)['.'] == 1 &&
       var (market, event) := SplitPair(id, '.').value;
       |Candidates(files, market, event, date)| == 1)
    ensures ResolvePath(files, id, date).Err? ==>
      ResolvePath(files, id, date).error == (if multiset(id)['.'] == 1 then PathNotFound(id) else BadIdentifier(id))
  {
  }

  /** A resolved identifier names exactly one file: the single file whose
      path passes all three filters. */
  lemma ResolvedIsUniqueCandidate(files: seq<SourceFile>, id: string, date: string)
    requires ResolvePath(files, id, date).Ok?
    ensures SplitPair(id, '.').Some?
    ensures var (market, event) := SplitPair(id, '.').value;
      Candidates(files, market, event, date) == [ResolvePath(files, id, date).value]
    ensures ResolvePath(files, id, date).value in files
  {
    var (market, event) := SplitPair(id, '.').value;
    var found := Candidates(files, market, event, date);
    assert found[0] in found;
    assert found == [found[0]];
  }

  /** The loop of `_build_path_store`, in identifier order. */
  function ResolveAll(files: seq<SourceFile>, ids: seq<string>, date: string): (r: Result<map<string, SourceFile>, SetupError>)
    ensures r.Ok? <==> forall id :: id in ids ==> ResolvePath(files, id, date).Ok?
    ensures r.Ok? ==> forall id :: id in r.value <==> id in ids
    ensures r.Ok? ==> forall id :: id in ids ==> ResolvePath(files, id, date) == Ok(r.value[id])
    ensures r.Err? ==> (r.error.BadIdentifier? || r.error.PathNotFound?) && r.error.id in ids
    ensures r.Err? ==> ResolvePath(files, r.error.id, date) == Err(r.error)
    ensures r.Ok? ==> forall id :: id in r.value ==> r.value[id] in files
  {
    if |ids| == 0 then Ok(map[])
    else
      var id, tail := ids[0], ids[1..];
      assert forall x :: x in ids <==> x == id || x in tail;
      match ResolvePath(files, id, date)
      case Err(e) => Err(e)
      case Ok(f) =>
        match ResolveAll(files, tail, date)
        case Err(e) => Err(e)
        case Ok(m) =>
          ResolvedIsUniqueCandidate(files, id, date);
          Ok(m[id := f])
  }

  /** `_build_path_store`: the start and end must share a calendar date, then
      every identifier must resolve to exactly one file of that date. */
  function BuildPathStore(ids: seq<string>, start: int, end: int, files: seq<SourceFile>): (r: Result<map<string, SourceFile>, SetupError>)
    ensures DayOf(start) != DayOf(end) ==> r == Err(DateMismatch)
    ensures DayOf(start) == DayOf(end) && DateString(start).Some? ==>
      (r.Ok? <==> forall id :: id in ids ==> ResolvePath(files, id, DateString(start).value).Ok?)
    ensures r.Ok? ==> DayOf(start) == DayOf(end) && DateString(start).Some?
    ensures r.Ok? ==> forall id :: id in ids ==>
      id in r.value && ResolvePath(files, id, DateString(start).value) == Ok(r.value[id])
    ensures r.Err? ==> (r.error.DateMismatch? || r.error.DateOutOfRange? ||
      ((r.error.PathNotFound? || r.error.BadIdentifier?) && r.error.id in ids))
    ensures r.Ok? ==> forall id :: id in r.value ==> r.value[id] in files
  {
    if DayOf(start) != DayOf(end) then Err(DateMismatch)
    else
      match DateString(start)
      case None => Err(DateOutOfRange)
      case Some(date) => ResolveAll(files, ids, date)
  }

  /** Data-store entries carry pairwise different identifiers (the store
      is a dict keyed by identifier). */
  predicate DistinctIds(sources: seq<Source>)
  {
    forall a, b :: 0 <= a < b < |sources| ==> sources[a].id != sources[b].id
  }

  /** Every record of every source lies inside [lo, hi]. */
  predicate InWindow(sources: seq<Source>, lo: int, hi: int)
  {
    forall k, x :: 0 <= k < |sources| && x in sources[k].frame.rows ==> lo <= x.time <= hi
  }

  /** The position of the first identifier whose file has no row at all. */
  function FirstEmpty(keys: seq<string>, paths: map<string, SourceFile>): (r: Option<nat>)
    requires forall id :: id in keys ==> id in paths
    ensures r.None? <==> forall j :: 0 <= j < |keys| ==> |paths[keys[j]].frame.rows| > 0
    ensures r.Some? ==> r.value < |keys| && |paths[keys[r.value]].frame.rows| == 0
    ensures r.Some? ==> forall j :: 0 <= j < r.value ==> |paths[keys[j]].frame.rows| > 0
  {
    if |keys| == 0 then None
    else if |paths[keys[0]].frame.rows| == 0 then Some(0)
    else
      assert forall j :: 1 <= j < |keys| ==> keys[j] == keys[1..][j - 1];
      match FirstEmpty(keys[1..], paths)
      case None => None
      case Some(j) => Some(j + 1)
  }

  /** The position of the first identifier whose rows inside [lo, hi]
      repeat a timestamp. */
  function FirstRepeated(keys: seq<string>, paths: map<string, SourceFile>, lo: int, hi: int): (r: Option<nat>)
    requires forall id :: id in keys ==> id in paths
    ensures r.None? <==> forall j :: 0 <= j < |keys| ==> UniqueTimes(Between(paths[keys[j]].frame.rows, lo, hi))
    ensures r.Some? ==> r.value < |keys| && !UniqueTimes(Between(paths[keys[r.value]].frame.rows, lo, hi))
  {
    if |keys| == 0 then None
    else if !UniqueTimes(Between(paths[keys[0]].frame.rows, lo, hi)) then Some(0)
    else
      assert forall j :: 1 <= j < |keys| ==> keys[j] == keys[1..][j - 1];
      match FirstRepeated(keys[1..], paths, lo, hi)
      case None => None
      case Some(j) => Some(j + 1)
  }

  /** Every file has a row, and its rows inside [lo, hi] have pairwise
      different timestamps. */
  predicate Loadable(keys: seq<string>, paths: map<string, SourceFile>, lo: int, hi: int)
    requires forall id :: id in keys ==> id in paths
  {
    forall id :: id in keys ==> |paths[id].frame.rows| > 0 && UniqueTimes(Between(paths[id].frame.rows, lo, hi))
  }

  /** `_build_data_store` over the distinct identifiers (a dict keyed by
      identifier), followed by the outer `concat` of `_align_data_store`:
      the first file without any row is an error, checked before the window
      filter; then the first window that repeats a timestamp is an error;
      otherwise every file's rows inside [lo, hi] are kept, in timestamp
      order. */
  function LoadAll(keys: seq<string>, paths: map<string, SourceFile>, lo: int, hi: int): (r: Result<seq<Source>, SetupError>)
    requires forall id :: id in keys ==> id in paths
    ensures r.Ok? <==> Loadable(keys, paths, lo, hi)
    ensures r.Err? ==> (r.error.NoData? || r.error.RepeatedTimestamp?) && r.error.id in keys
    ensures r.Err? && r.error.NoData? ==> |paths[r.error.id].frame.rows| == 0
    ensures r.Err? && r.error.RepeatedTimestamp? ==>
      && (forall id :: id in keys ==> |paths[id].frame.rows| > 0)
      && !UniqueTimes(Between(paths[r.error.id].frame.rows, lo, hi))
    ensures r.Ok? ==> |r.value| == |keys| && StoreWellFormed(r.value)
    ensures r.Ok? ==> forall k :: 0 <= k < |keys| ==>
      r.value[k].id == keys[k] && r.value[k].frame == Window(paths[keys[k]].frame, lo, hi)
    ensures r.Ok? ==> InWindow(r.value, lo, hi)
  {
    match FirstEmpty(keys, paths)
    case Some(j) =>
      assert keys[j] in keys;
      Err(NoData(keys[j]))
    case None =>
      assert forall id :: id in keys ==> exists j :: 0 <= j < |keys| && keys[j] == id;
      match FirstRepeated(keys, paths, lo, hi)
      case Some(j) =>
        assert keys[j] in keys;
        Err(RepeatedTimestamp(keys[j]))
      case None =>
        Ok(seq(|keys|, k requires 0 <= k < |keys| => Source(keys[k], Window(paths[keys[k]].frame, lo, hi))))
  }

  function BuildDataStore(ids: seq<string>, paths: map<string, SourceFile>, lo: int, hi: int): (r: Result<seq<Source>, SetupError>)
    requires forall id :: id in ids ==> id in paths
    ensures r.Ok? <==> Loadable(ids, paths, lo, hi)
    ensures r.Err? ==> (r.error.NoData? || r.error.RepeatedTimestamp?) && r.error.id in ids
    ensures r.Err? && r.error.NoData? ==> |paths[r.error.id].frame.rows| == 0
    ensures r.Err? && r.error.RepeatedTimestamp? ==> !UniqueTimes(Between(paths[r.error.id].frame.rows, lo, hi))
    ensures r.Ok? ==> |r.value| == |Distinct(ids)| && StoreWellFormed(r.value)
    ensures r.Ok? ==> forall k :: 0 <= k < |r.value| ==>
      r.value[k].id == Distinct(ids)[k] && r.value[k].frame == Window(paths[r.value[k].id].frame, lo, hi)
    ensures r.Ok? ==> DistinctIds(r.value) && InWindow(r.value, lo, hi)
  {
    LoadAll(Distinct(ids), paths, lo, hi)
  }
}

=== FILE: text.dfy ===
/** String operations with the meaning Python gives them: `needle in hay`,
    `str.lower`, `str.endswith`, `str.split`, and decimal formatting of
    naturals as `str` and `"%0Nd"` produce it. */
module Text {
  import opened Wrappers

  /** `needle` occurs in `hay` starting at index `p`. */
  predicate OccursAt(hay: string, needle: string, p: int)
  {
    0 <= p && p + |needle| <= |hay| && hay[p..p + |needle|] == needle
  }

  /** Python's `needle in hay`. */
  predicate Contains(hay: string, needle: string)
  {
    exists p | 0 <= p <= |hay| :: OccursAt(hay, needle, p)
  }

  /** The first occurrence of `needle` in `hay` at or after `from`. */
  function Find(hay: string, needle: string, from: nat): (r: Option<nat>)
    decreases |hay| - from
    ensures r.Some? ==> from <= r.value && OccursAt(hay, needle, r.value)
    ensures forall p :: from <= p && (r.None? || p < r.value) ==> !OccursAt(hay, needle, p)
  {
    if from + |needle| > |hay| then None
    else if OccursAt(hay, needle, from) then Some(from)
    else Find(hay, needle, from + 1)
  }

  /** One occurrence is enough for `Contains`. */
  lemma ContainsWitness(hay: string, needle: string, p: int)
    requires OccursAt(hay, needle, p)
    ensures Contains(hay, needle)
  {
  }

  /** Python's `str.lower` restricted to ASCII letters. */
  function LowerChar(c: char): char
  {
    if 'A' <= c <= 'Z' then (c as int + 32) as char else c
  }

  function Lower(s: string): string
  {
    seq(|s|, i requires 0 <= i < |s| => LowerChar(s[i]))
  }

  /** Python's `s.endswith(suffix)`. */
  predicate EndsWith(s: string, suffix: string)
  {
    |suffix| <= |s| && s[|s| - |suffix|..] == suffix
  }

  /** The index of the first `c` in `s`. */
  function IndexOf(s: string, c: char): (r: Option<nat>)
    ensures r.Some? ==> r.value < |s| && s[r.value] == c && c !in s[..r.value]
    ensures r.None? ==> c !in s
  {
    if |s| == 0 then None
    else if s[0] == c then Some(0)
    else
      match IndexOf(s[1..], c)
      case None => None
      case Some(i) =>
        assert s[..i + 1] == [s[0]] + s[1..][..i];
        Some(i + 1)
  }

  /** `a, b = s.split(sep)`: succeeds exactly when `s` holds one separator. */
  function SplitPair(s: string, sep: char): (r: Option<(string, string)>)
    ensures r.Some? <==> multiset(s)[sep] == 1
    ensures r.Some? ==> s == r.value.0 + [sep] + r.value.1
    ensures r.Some? ==> sep !in r.value.0 && sep !in r.value.1
  {
    match IndexOf(s, sep)
    case None =>
      assert multiset(s)[sep] == 0;
      None
    case Some(i) =>
      var before, after := s[..i], s[i + 1..];
      assert s == before + [sep] + after;
      assert multiset(s) == multiset(before) + multiset{sep} + multiset(after);
      assert multiset(before)[sep] == 0;
      if sep in after then
        assert multiset(after)[sep] >= 1;
        None
      else
        assert multiset(after)[sep] == 0;
        Some((before, after))
  }

  /** `s.split(sep)[0]`: everything before the first separator. */
  function FirstField(s: string, sep: char): (r: string)
    ensures sep !in r
    ensures |r| <= |s| && s[..|r|] == r
    ensures |r| == |s| || s[|r|] == sep
  {
    match IndexOf(s, sep)
    case None => s
    case Some(i) => s[..i]
  }

  /** The separator of prefixed column names. */
  const Sep: string := "__"

  /** `x.split(Sep)[1]`: the text between the first and the second separator. */
  function SecondField(x: string): (r: string)
    requires Contains(x, Sep)
  {
    var i := Find(x, Sep, 0).value;
    match Find(x, Sep, i + 2)
    case None => x[i + 2..]
    case Some(j) => x[i + 2..j]
  }

  /** Splitting `id + "__" + c` gives back `c` when neither side carries a stray
      separator; `id + "_"` rules out an identifier that ends in `_`. */
  lemma SecondFieldOfPrefixed(id: string, c: string)
    requires !Contains(id + "_", Sep) && !Contains(c, Sep)
    ensures Contains(id + Sep + c, Sep)
    ensures SecondField(id + Sep + c) == c
  {
    var x := id + Sep + c;
    assert OccursAt(x, Sep, |id|) by { assert x[|id|..|id| + 2] == Sep; }
    var first := Find(x, Sep, 0);
    forall p | 0 <= p < |id|
      ensures !OccursAt(x, Sep, p)
    {
      assert x[p..p + 2] == (id + "_")[p..p + 2];
      assert !OccursAt(id + "_", Sep, p);
    }
    assert first == Some(|id|);
    forall p | |id| + 2 <= p
      ensures !OccursAt(x, Sep, p)
    {
      if p + 2 <= |x| {
        assert x[p..p + 2] == c[p - |id| - 2..p - |id|];
        assert !OccursAt(c, Sep, p - |id| - 2);
      }
    }
    assert Find(x, Sep, |id| + 2) == None;
    assert x[|id| + 2..] == c;
  }

  /** A string without character `c` contains no needle that holds `c`. */
  lemma NoCharNoContains(hay: string, needle: string, c: char)
    requires c in needle && c !in hay
    ensures !Contains(hay, needle)
  {
  }

  // ---- decimal digits ----

  function DigitChar(d: int): char
    requires 0 <= d < 10
  {
    ('0' as int + d) as char
  }

  predicate IsDigit(c: char)
  {
    '0' <= c <= '9'
  }

  predicate AllDigits(s: string)
  {
    forall i :: 0 <= i < |s| ==> IsDigit(s[i])
  }

  /** Python's `str(n)` for a natural number. */
  function Decimal(n: nat): (r: string)
    ensures 1 <= |r| && AllDigits(r)
  {
    if n < 10 then [DigitChar(n)] else Decimal(n / 10) + [DigitChar(n % 10)]
  }

  function Zeros(k: nat): (r: string)
    ensures |r| == k && AllDigits(r)
  {
    seq(k, _ => '0')
  }

  /** Python's `"%0*d" % (width, n)`: at least `width` digits, zero-padded. */
  function Padded(n: nat, width: nat): (r: string)
    ensures AllDigits(r)
  {
    var d := Decimal(n);
    if |d| < width then Zeros(width - |d|) + d else d
  }

  /** The number a digit string denotes: the reference the formatters are
      checked against. */
  function Value(s: string): nat
    requires AllDigits(s)
  {
    if |s| == 0 then 0 else Value(s[..|s| - 1]) * 10 + (s[|s| - 1] as int - '0' as int)
  }

  function Pow10(k: nat): nat
  {
    if k == 0 then 1 else 10 * Pow10(k - 1)
  }

  lemma {:induction false} DecimalValue(n: nat)
    ensures Value(Decimal(n)) == n
  {
    if n >= 10 {
      var d := Decimal(n);
      assert d[..|d| - 1] == Decimal(n / 10);
      DecimalValue(n / 10);
    }
  }

  lemma {:induction false} DecimalLength(n: nat, k: nat)
    requires 1 <= k && n < Pow10(k)
    ensures |Decimal(n)| <= k
  {
    if n >= 10 {
      assert Pow10(1) == 10;
      DecimalLength(n / 10, k - 1);
    }
  }

  lemma {:induction false} LeadingZero(s: string)
    requires AllDigits(s)
    ensures AllDigits(['0'] + s) && Value(['0'] + s) == Value(s)
  {
    if |s| > 0 {
      var t := ['0'] + s;
      assert t[..|t| - 1] == ['0'] + s[..|s| - 1];
      LeadingZero(s[..|s| - 1]);
    }
  }

  lemma {:induction false} LeadingZeros(k: nat, s: string)
    requires AllDigits(s)
    ensures Value(Zeros(k) + s) == Value(s)
  {
    if k > 0 {
      var rest := Zeros(k - 1) + s;
      assert Zeros(k) + s == ['0'] + rest;
      LeadingZeros(k - 1, s);
      assert AllDigits(rest);
      LeadingZero(rest);
      assert Value(['0'] + rest) == Value(rest);
    } else {
      assert Zeros(k) + s == s;
    }
  }

  /** Zero padding keeps the value and reaches exactly the width when the
      number fits into it. */
  lemma PaddedRoundTrip(n: nat, width: nat)
    requires 1 <= width && n < Pow10(width)
    ensures |Padded(n, width)| == width
    ensures Value(Padded(n, width)) == n
  {
    DecimalLength(n, width);
    DecimalValue(n);
    var d := Decimal(n);
    if |d| < width {
      LeadingZeros(width - |d|, d);
    } else {
      assert |d| == width;
    }
  }
}

=== FILE: timeline.dfy ===
/** Global timelines: strictly increasing sequences of nanosecond timestamps,
    and their union, which is the index pandas' outer `concat` builds when it
    aligns several time-indexed frames with differing indexes side by side. */
module Timeline {

  predicate Increasing(s: seq<int>)
  {
    forall i, j :: 0 <= i < j < |s| ==> s[i] < s[j]
  }

  /** Every element after the head of an increasing sequence is above it. */
  lemma TailAbove(s: seq<int>, t: int)
    requires Increasing(s) && |s| > 0 && t in s[1..]
    ensures s[0] < t
  {
    var k :| 0 <= k < |s[1..]| && s[1..][k] == t;
    assert s[k + 1] == t;
  }

  lemma Prepend(x: int, s: seq<int>)
    requires Increasing(s) && forall t :: t in s ==> x < t
    ensures Increasing([x] + s)
  {
    forall i, j | 0 <= i < j < |[x] + s| ensures ([x] + s)[i] < ([x] + s)[j] {
      assert ([x] + s)[j] == s[j - 1] && s[j - 1] in s;
    }
  }

  /** The sorted, duplicate-free union of two increasing timelines. */
  function Merge(a: seq<int>, b: seq<int>): (r: seq<int>)
    requires Increasing(a) && Increasing(b)
    decreases |a| + |b|
    ensures Increasing(r)
    ensures forall t :: t in r <==> t in a || t in b
  {
    if |a| == 0 then b
    else if |b| == 0 then a
    else
    assert a == [a[0]] + a[1..] && b == [b[0]] + b[1..];
    if a[0] < b[0] then
      var rest := Merge(a[1..], b);
      forall t | t in rest ensures a[0] < t {
        if t in a[1..] { TailAbove(a, t); } else if t != b[0] { TailAbove(b, t); }
      }
      Prepend(a[0], rest);
      [a[0]] + rest
    else if b[0] < a[0] then
      var rest := Merge(a, b[1..]);
      forall t | t in rest ensures b[0] < t {
        if t in b[1..] { TailAbove(b, t); } else if t != a[0] { TailAbove(a, t); }
      }
      Prepend(b[0], rest);
      [b[0]] + rest
    else
      var rest := Merge(a[1..], b[1..]);
      forall t | t in rest ensures a[0] < t {
        if t in a[1..] { TailAbove(a, t); } else { TailAbove(b, t); }
      }
      Prepend(a[0], rest);
      [a[0]] + rest
  }

  /** The union of any number of increasing timelines. */
  function UnionAll(ts: seq<seq<int>>): (r: seq<int>)
    requires forall k :: 0 <= k < |ts| ==> Increasing(ts[k])
    ensures Increasing(r)
    ensures forall t :: t in r <==> exists k :: 0 <= k < |ts| && t in ts[k]
  {
    if |ts| == 0 then []
    else
      var rest := UnionAll(ts[1..]);
      var r := Merge(ts[0], rest);
      forall t | t in r ensures exists k :: 0 <= k < |ts| && t in ts[k] {
        if t !in ts[0] {
          var k :| 0 <= k < |ts[1..]| && t in ts[1..][k];
          assert t in ts[k + 1];
        }
      }
      forall t, k | 0 <= k < |ts| && t in ts[k] ensures t in r {
        if k > 0 { assert t in ts[1..][k - 1]; }
      }
      r
  }
}

=== FILE: wrappers.dfy ===
/** `Option` stands for a value that may be absent: a NaN cell, a file
    without a match. `Result` stands for a step of the replay that either
    produces a value or raises; its failure methods let `:-` pass the
    error on. */
module Wrappers {

  datatype Option<+T> = None | Some(value: T)

  datatype Result<+R, +E> = Ok(value: R) | Err(error: E) {

    predicate IsFailure() {
      Err?
    }

    function PropagateFailure<U>(): Result<U, E>
      requires Err?
    {
      Err(error)
    }

    function Extract(): R
      requires Ok?
    {
      value
    }
  }
}
